=== FILE: README.md ===
# Rowing split chart — a Dafny model

The rowing tools turn a coach's test results into a chart of intermediate
splits. Results come from a Google-Sheets export or from a workbook. The
core of the program:

- reads the results into one record per rower (`g_sheets_to_dict`,
  `scores_to_dict`), optionally adjusting times for body weight
  (`weightAdjustSplit`);
- converts between seconds and `M:SS.d` clock text (`secBreakdown`,
  `breakdownTimePrintout`, `sec2timePrintout`, `g_sheets_time_to_sec`);
- picks y-axis bounds that hold every intermediate split of the chosen
  rowers (`determine_split_bounds`), and the major and minor tick marks
  between them (`determine_range_scale`);
- computes the US Rowing masters age handicap (`age_handicap`).

The model keeps the program's structure, one module per concern:

- `Numerics`: Python's `math.floor`, `math.ceil`, `int()` and `round()` to a whole number, on exact reals.
- `Text`: `str()` of an integer, `float()` of decimal text, `str.split`, `str.replace`.
- `Clock`: the clock-text helpers.
- `Records`: the two record builders, the weight adjustment and `round(x, 1)`.
- `Chart`: bounds and ticks.
- `Handicap`: the age handicap.
- `RowingPackage`: the `rowing` package's copies of the clock helpers.

Python exceptions become the `Errors.Error` values of a `Result`:
`IndexError`, `KeyError`, `ValueError` and `NameError`. The loops of
`determine_split_bounds` and `determine_range_scale` are methods whose loop
invariants prove them equal to a functional reference. The row loops of
the two record builders are modelled as recursive functions only.

The `rowing` package repeats some helpers:

- `breakdownTimePrintout` (`rowing/__init__.py:8-11`) is the same code as
  `rowing_functions/__init__.py:116-118`, so `Clock.BreakdownTimePrintout`
  models both.
- `weightAdjustSplit` (`rowing/__init__.py:23-24`) is the same code as
  `rowing_functions/__init__.py:141-142`, so `Records.WeightAdjustSplit`
  models both.

Behaviour of the code worth knowing:

- The axis lower bound is `int(min) // 5 * 5`. That truncates toward zero,
  not `floor(min / 5) * 5`. The two differ only for negative splits.
- The errors are the Python exceptions the code raises:
  - an empty rower list, or a first rower with no splits, raises `IndexError`;
  - a rower without a record raises `KeyError`;
  - an unreadable time raises `ValueError`;
  - a short sheet row raises `IndexError`, unless a cell read before the
    missing one is already unreadable (a four-cell row with a bad weight
    raises `ValueError`).
- Only the workbook reader stops at the first blank split cell. In the
  Google-Sheets reader every cell after the sixth is parsed, and a blank
  one raises `ValueError`.

## Model

| member | source | states |
|---|---|---|
| Clock.SecBreakdown | rowing_functions/__init__.py:106-110 | the minutes times 60 plus the seconds is the floor of the time; the seconds lie in 0..59, the time lies within the minute found, and the microseconds are the whole millionths of a second past the floor of the time, in 0..999999 |
| Clock.BreakdownTimePrintout | rowing_functions/__init__.py:116-118 | for an in-range breakdown the text is the minute, ':', the seconds as exactly two digits (zero-padded below 10), '.', and the first digit of the microseconds |
| Clock.Sec2TimePrintout | rowing_functions/__init__.py:132-134 | the clock text starts with the whole minutes of the time, has ':' and '.' in place, a two-digit seconds field below 60, and ends in one digit |
| Clock.DecisecondTruncates | rowing_functions/__init__.py:106-118 | the printed tenth is the first decimal of the time, cut off rather than rounded |
| Clock.GSheetsTimeToSec | rowing_functions/__init__.py:26-28 | text without exactly one ':' raises ValueError, and every failure is a ValueError |
| Clock.ReadMinutesAndSeconds | rowing_functions/__init__.py:26-28 | two readable numbers around one ':' read as minutes times 60 plus seconds |
| Clock.UnreadableSideFails | rowing_functions/__init__.py:26-28 | with one ':', a side that `float()` rejects makes the conversion raise ValueError |
| Clock.ReadClockText | rowing_functions/__init__.py:26-28 | `M:SS.d` text reads back as its minutes, seconds and tenth |
| Clock.ClockTextShape | rowing_functions/__init__.py:132-134 | the clock text is built from the breakdown's minute, seconds digits and tenth digit |
| Clock.ClockTextFields | rowing_functions/__init__.py:132-134 | the sheet parser reads the clock text back as the breakdown's minutes, seconds and tenths |
| Clock.ClockTextReadsBack | rowing_functions/__init__.py:132-134 | printing a time and parsing it back gives the time truncated to a tenth: never more than the time, less than 0.1 below it |
| Clock.PrintoutExamples | rowing_functions/__init__.py:132-134 | 125.34 s prints as 2:05.3, and 59.96 s as 0:59.9 (no carry into the next second) |
| Records.RoundToTenth | rowing_functions/__init__.py:142 | `round(x, 1)` lands within 0.05 of x, on a whole tenth, and an exact tie goes to the even tenth |
| Records.WeightAdjustSplit | rowing_functions/__init__.py:141-142 | without a weight the split is returned unchanged; with one, the result is a whole tenth within 0.05 of the split times the power of weight/270 |
| Records.Assemble | rowing_functions/__init__.py:49-72 | the row loop succeeds exactly when every row converts; on failure the error is that of the first failing row |
| Records.AssembleAppend | rowing_functions/__init__.py:49-51 | one more row stores its record under its key, overwriting any earlier one |
| Records.AssembleLastWins | rowing_functions/__init__.py:49-51 | the keys are exactly the rows' keys, and a key holds the record of the last row that carries it |
| Records.AssembleValuesFromRows | rowing_functions/__init__.py:49-51 | every stored record was built from one of the rows, under that row's key |
| Records.KeyColumn | rowing_functions/__init__.py:44-47 | the key is the name column (2) exactly when the mode is "distance", and the date column (0) in every other mode |
| Records.ParseWeight | rowing_functions/__init__.py:57 | an empty weight cell means no weight; otherwise the cell must read as a number, else ValueError |
| Records.ConvertAll | rowing_functions/__init__.py:66-69 | converting cells succeeds exactly when every cell converts, keeping the count and the order of the values |
| Records.ParseTimes | rowing_functions/__init__.py:66-70 | the splits are the cells after the sixth, each read as a clock time, in order; one unreadable cell raises |
| Records.ParseEntry | rowing_functions/__init__.py:49-70 | a row builds exactly when it has six cells and its weight, time, split and split cells all read; then the key, the raw date, the '/'-to-'-' date, the weight, time, split and splits are those read from their columns; a row of fewer than four cells raises IndexError, a row of six or more fails only with ValueError |
| Records.ParseRest | rowing_functions/__init__.py:62-70 | once weight and time are read, the row builds exactly when the split and every later cell read, and the record holds the values read from its columns |
| Records.GSheetsToDict | rowing_functions/__init__.py:41-72 | the sheet builds exactly when every row parses, and then every row has at least six cells |
| Records.SheetLaterRowOverwrites | rowing_functions/__init__.py:49-72 | appending a row stores its record under its key, replacing the earlier record with the same key |
| Records.SheetKeysAndLastRecord | rowing_functions/__init__.py:41-72 | the keys are exactly the rows' key cells, and under each key is the record, with its split count, of the last row carrying it |
| Records.LeadingValues | rowing_functions/__init__.py:206-209 | the splits read are the cells before the first blank one, in order, and the cell just after them is blank |
| Records.AdjustAll | rowing_functions/__init__.py:210 | every read split is weight-adjusted, with the count kept |
| Records.WorkbookEntry | rowing_functions/__init__.py:197-210 | the weight is used only when adjustment is requested; `split0` is the raw split; time, split and every leading split cell are each adjusted with that same weight, so without a weight they are the raw values |
| Records.ScoresToDict | rowing_functions/__init__.py:193-212 | the keys are exactly the row names; without a weight the split equals the raw split; without adjustment no record has a weight |
| Records.WorkbookLastRowWins | rowing_functions/__init__.py:196-198 | the record under a name is built from the last row with that name |
| Chart.SeqMin | rowing_functions/__init__.py:154 | the running `min` ends at a split no larger than any other |
| Chart.SeqMax | rowing_functions/__init__.py:155 | the running `max` ends at a split no smaller than any other |
| Chart.AllSplitsFirstRower | rowing_functions/__init__.py:152-153 | the scan visits the rowers in order: the gathered splits begin with the first selected rower's splits |
| Chart.AllSplitsMembers | rowing_functions/__init__.py:152-153 | the scanned values are exactly the intermediate splits of the selected rowers |
| Chart.FirstMissing | rowing_functions/__init__.py:152-153 | the scan finds a rower without a record exactly when one is selected, and it is the first such rower |
| Chart.FirstMissingAfter | rowing_functions/__init__.py:152-153 | rowers already scanned with records do not change which rower is the first without one |
| Chart.BoundsOf | rowing_functions/__init__.py:157-160 | both bounds are multiples of 5; the lower bound is `int(min)`, truncated toward zero, rounded down to a multiple of 5, so for a non-negative minimum it is within 5 below it; the upper bound is the padded maximum rounded up to a multiple of 5 |
| Chart.BoundsOrdered | rowing_functions/__init__.py:157-160 | for any minimum not above the maximum, of either sign, the lower bound is at most the upper one and the maximum is at or below the upper one |
| Chart.SplitBounds | rowing_functions/__init__.py:148-162 | the bounds exist exactly when the list is non-empty, every rower has a record and the first has a split; an empty list raises IndexError, a first rower without a record raises KeyError for it, a first rower without splits raises IndexError, and otherwise the first later rower without a record raises KeyError for that rower |
| Chart.SplitBoundsContainSplits | rowing_functions/__init__.py:148-162 | the bounds are ordered multiples of 5 and every intermediate split of every selected rower is at or below the upper one, whatever the signs; when no split is negative, every split is also at or above the lower one |
| Chart.SplitBoundsExample | rowing_functions/__init__.py:148-162 | splits from 90 to 110 give the bounds 90 and 115 |
| Chart.ExtremesUnique | rowing_functions/__init__.py:149-155 | a least and a greatest element are the minimum and maximum |
| Chart.ScanSplits | rowing_functions/__init__.py:153-155 | the inner loop keeps the running minimum and maximum of everything seen |
| Chart.ScanRowers | rowing_functions/__init__.py:152-155 | the outer loop stops at the first rower without a record; otherwise it ends with the extremes of the seed and every split |
| Chart.AllSplitsStep | rowing_functions/__init__.py:152-153 | scanning one more rower adds exactly that rower's splits |
| Chart.ScannedExtremes | rowing_functions/__init__.py:149-160 | the extremes of a scan seeded with the first split are those the bounds are computed from |
| Chart.DetermineSplitBounds | rowing_functions/__init__.py:148-162 | the nested loops give the same bounds, and the same errors, as the functional definition |
| Chart.FirstAligned | rowing_functions/__init__.py:169-171 | the first tick is the smallest multiple of the interval at or above the lower bound |
| Chart.TickSeq | rowing_functions/__init__.py:173-176 | stepping stops before passing the upper bound: no tick exactly when the start is above it, and the last tick plus one interval is above it |
| Chart.TickSeqSteps | rowing_functions/__init__.py:173-176 | the ticks stay between the start and the upper bound, increase strictly, and are one interval apart |
| Chart.AxisTicks | rowing_functions/__init__.py:169-176 | the ticks start at the first aligned value, lie inside the bounds, increase, and are one interval apart |
| Chart.TickSeqAligned | rowing_functions/__init__.py:173-176 | from an aligned start every tick is a multiple of the interval, and no multiple up to the upper bound is skipped |
| Chart.AxisTicksAlignedAndComplete | rowing_functions/__init__.py:168-187 | every tick is a multiple of its interval, and every such multiple inside the bounds is a tick |
| Chart.StepTicks | rowing_functions/__init__.py:173-176 | the while loop builds exactly the stepped sequence |
| Chart.Ticks | rowing_functions/__init__.py:169-176 | one tick list from the loop equals the specified axis ticks |
| Chart.DetermineRangeScale | rowing_functions/__init__.py:168-187 | the major and the minor tick lists are the axis ticks of their intervals |
| Chart.RangeScaleExample | rowing_functions/__init__.py:168-187 | between 90 and 115 the default major ticks are 90 and 105, and the minor ticks are every 5 seconds |
| Handicap.RatesFor | rowing_functions/__init__.py:13-14 | the table knows exactly the boats with 2, 4 and 8 oars |
| Handicap.AgeHandicap | rowing_functions/__init__.py:12-20 | the handicap exists exactly for 2, 4 or 8 oars; any other boat raises KeyError for its oar count |
| Handicap.PerKilometre | rowing_functions/__init__.py:15-18 | the handicap over 1000 m of a whole age is zero at the peak age 27 |
| Handicap.OverDistance | rowing_functions/__init__.py:19 | the per-kilometre value is the handicap over exactly 1000 m |
| Handicap.OverDistanceProportional | rowing_functions/__init__.py:19 | a value scaled to two distances gives results in the ratio of the distances |
| Handicap.HandicapScalesWithDistance | rowing_functions/__init__.py:12-20 | the handicap times 1000 is the per-kilometre value of the whole years of age times the distance |
| Handicap.RatesPositive | rowing_functions/__init__.py:13-14 | every coefficient in the table is positive |
| Handicap.HandicapByWholeYears | rowing_functions/__init__.py:15 | ages with the same whole years get the same handicap |
| Handicap.HandicapNonNegative | rowing_functions/__init__.py:12-20 | over a non-negative distance the handicap is never negative |
| Handicap.HandicapZeroAtPeak | rowing_functions/__init__.py:12-20 | over a positive distance the handicap is zero exactly in the 27th year |
| Handicap.HandicapOrder | rowing_functions/__init__.py:19 | scaling to a non-negative distance keeps the order of per-kilometre values |
| Handicap.HandicapGrowsAfterPeak | rowing_functions/__init__.py:12-20 | past 27, an older rower never gets a smaller handicap |
| Handicap.HandicapGrowsBeforePeak | rowing_functions/__init__.py:12-20 | before 27, a younger rower never gets a smaller handicap |
| Handicap.HandicapSymmetricAboutPeak | rowing_functions/__init__.py:12-20 | up to 80, ages the same number of years either side of 27 get the same handicap |
| Handicap.BiggerBoatsGetLess | rowing_functions/__init__.py:12-20 | a bigger boat never gets more handicap than a smaller one |
| Handicap.HandicapExamples | rowing_functions/__init__.py:12-20 | a single sculler of 40 gets 4.225 s over 1000 m and 8.45 s over 2000 m, of 85 gets 97.6 s; a 3-oar boat raises KeyError |
| Handicap.PerKilometreNonNegative | rowing_functions/__init__.py:15-18 | the per-kilometre value is never negative |
| Handicap.PerKilometrePositive | rowing_functions/__init__.py:15-18 | away from 27 the per-kilometre value is positive |
| Handicap.PerKilometreGrows | rowing_functions/__init__.py:15-18 | past 27 the per-kilometre value grows with age, including the linear term past 80 |
| Handicap.PerKilometreShrinks | rowing_functions/__init__.py:15-18 | before 27 the per-kilometre value shrinks with age |
| Handicap.PerKilometreSymmetric | rowing_functions/__init__.py:15-18 | up to 80 the per-kilometre value is symmetric about 27 |
| Handicap.PerKilometreByRates | rowing_functions/__init__.py:15-18 | smaller coefficients give a smaller per-kilometre value |
| RowingPackage.FloorIn | rowing/__init__.py:2-4 | `floor` gives the floor when imported, and raises NameError otherwise |
| RowingPackage.SecBreakdown | rowing/__init__.py:1-5 | without `floor` imported the call raises NameError; with it, it is `Clock.SecBreakdown`, the `rowing_functions` helper |
| RowingPackage.Sec2TimePrintout | rowing/__init__.py:18-20 | without `floor` imported the call raises NameError; with it, it is `Clock.Sec2TimePrintout`, the `rowing_functions` helper |
| RowingPackage.ShippedHelpersFail | rowing/__init__.py:1-20 | as shipped, every call raises NameError, whatever the time; fixed, every call agrees with the `rowing_functions` helpers in `Clock` |
| RowingPackage.FloorFinding | rowing/__init__.py:18-20 | 125.34 s raises NameError as shipped and prints 2:05.3 once `floor` is imported |

## Left out

- Floating point: times, weights and coefficients are exact reals, so the
  model has no binary rounding. For example, `0.1 * 3` is exactly `0.3`
  here, and `round(x, 1)` rounds a true half to even. The floors that cut
  the tenth of a second are where binary rounding changes the printed text:
  with IEEE-754 doubles, "1:45.3" reads back as the double just below
  105.3, its microseconds floor to 299999, and `sec2timePrintout` prints
  "1:45.2". On exact reals the model prints "1:45.3".
- Clock.ClockTextReadsBack and Clock.DecisecondTruncates: hold for exact
  reals only. On doubles a time such as 105.3 whose stored value lies just
  below a tenth prints one tenth lower.
- `float()` is modelled for an optional sign, decimal digits and at most
  one '.'. It does not model exponents, `inf`/`nan`, underscores or
  surrounding whitespace.
- `g_sheets_time_to_date`: the date text is kept after the '/' to '-'
  replacement. `date.fromisoformat`, and the ValueError it raises on a bad
  date, are library parsing and are not modelled.
- `datetime2sec` and the openpyxl cell reads: a workbook row is given as
  seconds already read, with `None` for a blank cell.
- Records.WeightAdjustSplit: the power `(weight / 270) ** 0.222` is a
  function parameter. It is a fractional power of a float, with no exact
  real counterpart.
- `plot_splits`, matplotlib and `setup.py`: drawing and packaging only.
- `get_dict`, `chose_distance`, `chose_person`: row filters around
  `g_sheets_to_dict`, outside the modelled core.
- Chart.SplitBoundsContainSplits: the lower bound is shown to lie at or
  below every split only for non-negative splits. For a negative minimum,
  `int()` truncates toward zero, so the lower bound can lie above it. The
  upper-bound half holds for splits of any sign.
- Chart.DetermineRangeScale: requires positive intervals. The code raises
  ZeroDivisionError for a zero interval. For a negative interval the loop
  never ends whenever the first value is at most the upper bound, and
  otherwise it returns an empty list (bounds [95, 100] with interval -15
  start at 105). The program calls it only with the defaults 15 and 5.
- Handicap.AgeHandicap: the oar count is an integer. Python would also
  accept a float key equal to 2, 4 or 8.
- The age handicap's defaults (1000 m, 2 oars) and the tick intervals'
  defaults (15 and 5) are not separate members. They appear in
  Handicap.HandicapExamples and Chart.RangeScaleExample.

## Findings

| source | as written | input that shows it | evidently intended | confidence | as-written member | corrected member |
|---|---|---|---|---|---|---|
| rowing/__init__.py:1-5 | `secBreakdown`, and so `sec2timePrintout`, call `floor`, but the module never imports it | any time, e.g. 125.34: the call raises NameError | `from math import floor`, as the `rowing_functions` module has, so that 125.34 prints as 2:05.3 | not executed | RowingPackage.Sec2TimePrintout | Clock.Sec2TimePrintout |

The lemma `RowingPackage.FloorFinding` exhibits the failure on 125.34.
`RowingPackage.ShippedHelpersFail` shows it for every time. With `floor`
imported, the package helper equals `Clock.Sec2TimePrintout`. For that
function, `Clock.ClockTextReadsBack` proves the intended round trip: the
text reads back as the time truncated to a tenth.

=== FILE: chart.dfy ===
/** The numbers the split chart is drawn with: the y-axis bounds that
    contain every intermediate split of the chosen rowers
    (`determine_split_bounds`), and the major and minor tick marks between
    them (`determine_range_scale`). */
module Chart {
  import opened Wrappers
  import opened Errors
  import opened Numerics
  import opened Records

  /** Both axis bounds are multiples of this many seconds. */
  const BoundInterval := 5
  /** Default spacing of the major and of the minor tick marks, in seconds. */
  const DefaultMajorInterval := 15
  const DefaultMinorInterval := 5

  /** The y-axis range `[lower, upper]`, in seconds. */
  datatype Bounds = Bounds(lower: int, upper: int)

  predicate IsLeast(m: real, s: seq<real>) {
    m in s && forall x :: x in s ==> m <= x
  }

  predicate IsGreatest(m: real, s: seq<real>) {
    m in s && forall x :: x in s ==> x <= m
  }

  /** The smallest value of a non-empty sequence. */
  function SeqMin(s: seq<real>): (m: real)
    requires |s| > 0
    ensures IsLeast(m, s)
  {
    if |s| == 1 then s[0]
    else
      var rest := SeqMin(s[1..]);
      assert forall x :: x in s ==> x == s[0] || x in s[1..];
      if s[0] <= rest then s[0] else rest
  }

  /** The largest value of a non-empty sequence. */
  function SeqMax(s: seq<real>): (m: real)
    requires |s| > 0
    ensures IsGreatest(m, s)
  {
    if |s| == 1 then s[0]
    else
      var rest := SeqMax(s[1..]);
      assert forall x :: x in s ==> x == s[0] || x in s[1..];
      if s[0] >= rest then s[0] else rest
  }

  /** A least element is the minimum, a greatest element the maximum. */
  lemma ExtremesUnique(lo: real, hi: real, s: seq<real>)
    requires |s| > 0
    ensures IsLeast(lo, s) ==> lo == SeqMin(s)
    ensures IsGreatest(hi, s) ==> hi == SeqMax(s)
  {
  }

  predicate AllSelected(rowers: seq<string>, scores: map<string, Record>) {
    forall i :: 0 <= i < |rowers| ==> rowers[i] in scores
  }

  /** Every intermediate split of the given rowers, rower by rower. */
  function AllSplits(rowers: seq<string>, scores: map<string, Record>): seq<real>
    requires AllSelected(rowers, scores)
  {
    if |rowers| == 0 then []
    else
      var n := |rowers| - 1;
      assert forall i :: 0 <= i < n ==> rowers[..n][i] == rowers[i];
      AllSplits(rowers[..n], scores) + scores[rowers[n]].splits
  }

  /** The gathered splits are exactly the splits of the selected rowers. */
  lemma {:induction false} AllSplitsMembers(rowers: seq<string>, scores: map<string, Record>)
    requires AllSelected(rowers, scores)
    ensures forall i, j :: 0 <= i < |rowers| && 0 <= j < |scores[rowers[i]].splits| ==>
      scores[rowers[i]].splits[j] in AllSplits(rowers, scores)
    ensures forall x :: x in AllSplits(rowers, scores) ==>
      exists i :: 0 <= i < |rowers| && x in scores[rowers[i]].splits
  {
    if |rowers| > 0 {
      var n := |rowers| - 1;
      assert forall i :: 0 <= i < n ==> rowers[..n][i] == rowers[i];
      AllSplitsMembers(rowers[..n], scores);
    }
  }

  /** The scan visits the rowers in order, so the gathered splits begin
      with the first selected rower's splits. */
  lemma {:induction false} AllSplitsFirstRower(rowers: seq<string>, scores: map<string, Record>)
    requires AllSelected(rowers, scores) && |rowers| > 0
    ensures scores[rowers[0]].splits <= AllSplits(rowers, scores)
  {
    var n := |rowers| - 1;
    if n > 0 {
      assert forall i :: 0 <= i < n ==> rowers[..n][i] == rowers[i];
      AllSplitsFirstRower(rowers[..n], scores);
    }
  }

  /** The first selected rower with no record, whose lookup raises KeyError. */
  function FirstMissing(rowers: seq<string>, scores: map<string, Record>): (r: Option<string>)
    ensures r.None? <==> AllSelected(rowers, scores)
    ensures r.Some? ==> exists i :: (0 <= i < |rowers| && rowers[i] == r.value && r.value !in scores
      && forall j :: 0 <= j < i ==> rowers[j] in scores)
  {
    if |rowers| == 0 then None
    else if rowers[0] !in scores then Some(rowers[0])
    else
      var r := FirstMissing(rowers[1..], scores);
      assert forall i :: 1 <= i < |rowers| ==> rowers[1..][i - 1] == rowers[i];
      r
  }

  /** Skipping rowers that all have records does not change the first missing one. */
  lemma {:induction false} FirstMissingAfter(rowers: seq<string>, scores: map<string, Record>, i: nat)
    requires i <= |rowers|
    requires forall j :: 0 <= j < i ==> rowers[j] in scores
    ensures FirstMissing(rowers, scores) == FirstMissing(rowers[i..], scores)
  {
    if i > 0 {
      assert rowers[1..][i - 1..] == rowers[i..];
      FirstMissingAfter(rowers[1..], scores, i - 1);
    }
  }

  /** The axis bounds for splits ranging from `lo` to `hi`: the lower bound
      is `int(lo)` rounded down to a multiple of 5, and the upper bound is
      `hi` raised by a fifth of the distance from the lower bound, rounded up
      to a multiple of 5. */
  function BoundsOf(lo: real, hi: real): (b: Bounds)
    ensures b.lower % BoundInterval == 0 && b.upper % BoundInterval == 0
    ensures b.lower <= Trunc(lo) < b.lower + BoundInterval
    ensures lo >= 0.0 ==> b.lower as real <= lo < b.lower as real + 5.0
    ensures var padded := hi + (hi - b.lower as real) / 5.0;
      b.upper as real - 5.0 < padded <= b.upper as real
  {
    var lower := (Trunc(lo) / BoundInterval) * BoundInterval;
    RoundDownToMultiple(Trunc(lo), BoundInterval);
    var padded := hi + (hi - lower as real) / 5.0;
    var upper := Ceil(padded / BoundInterval as real) * BoundInterval;
    ScaleReal(padded / 5.0, Ceil(padded / 5.0) as real, 5.0);
    ScaleReal(Ceil(padded / 5.0) as real - 1.0, padded / 5.0, 5.0);
    Bounds(lower, upper)
  }

  /** `determine_split_bounds`, as a function: the rower list must be
      non-empty and its first rower must have a record with at least one
      split (the scan is seeded from it); every rower must have a record. */
  function SplitBounds(rowers: seq<string>, scores: map<string, Record>): (r: Result<Bounds, Error>)
    ensures r.Success? <==> (|rowers| > 0 && AllSelected(rowers, scores)
      && |scores[rowers[0]].splits| > 0)
    ensures |rowers| == 0 ==> r == Failure(IndexError)
    ensures |rowers| > 0 && rowers[0] !in scores ==> r == Failure(KeyError(rowers[0]))
    ensures |rowers| > 0 && rowers[0] in scores && |scores[rowers[0]].splits| == 0 ==> r == Failure(IndexError)
    ensures (|rowers| > 0 && rowers[0] in scores && |scores[rowers[0]].splits| > 0
      && FirstMissing(rowers, scores).Some?) ==> r == Failure(KeyError(FirstMissing(rowers, scores).value))
  {
    if |rowers| == 0 then Failure(IndexError)
    else if rowers[0] !in scores then Failure(KeyError(rowers[0]))
    else if |scores[rowers[0]].splits| == 0 then Failure(IndexError)
    else match FirstMissing(rowers, scores)
      case Some(name) => Failure(KeyError(name))
      case None =>
        var all := AllSplits(rowers, scores);
        AllSplitsMembers(rowers, scores);
        assert scores[rowers[0]].splits[0] in all;
        Success(BoundsOf(SeqMin(all), SeqMax(all)))
  }

  /** For any minimum not above the maximum, the bounds are ordered and the
      upper one is at or above the maximum, whatever the signs. */
  lemma BoundsOrdered(lo: real, hi: real)
    requires lo <= hi
    ensures BoundsOf(lo, hi).lower <= BoundsOf(lo, hi).upper
    ensures hi <= BoundsOf(lo, hi).upper as real
  {
    var b := BoundsOf(lo, hi);
    assert (Trunc(lo) as real) < lo + 1.0;
    assert (b.lower as real) < hi + 1.0;
    var padded := hi + (hi - b.lower as real) / 5.0;
    assert padded > hi - 0.2;
    if b.upper < b.lower {
      MultiplesApart(b.upper, b.lower, BoundInterval);
      assert false;
    }
  }

  /** The bounds are ordered multiples of 5 and the upper one is at or above
      every intermediate split of every selected rower; when no split is
      negative, the lower one is at or below every split too. */
  lemma SplitBoundsContainSplits(rowers: seq<string>, scores: map<string, Record>)
    requires SplitBounds(rowers, scores).Success?
    ensures var b := SplitBounds(rowers, scores).value;
      && b.lower % 5 == 0 && b.upper % 5 == 0
      && b.lower <= b.upper
      && forall i, j :: 0 <= i < |rowers| && 0 <= j < |scores[rowers[i]].splits| ==>
           scores[rowers[i]].splits[j] <= b.upper as real
    ensures (forall i, j :: 0 <= i < |rowers| && 0 <= j < |scores[rowers[i]].splits| ==>
      scores[rowers[i]].splits[j] >= 0.0) ==>
      var b := SplitBounds(rowers, scores).value;
      forall i, j :: 0 <= i < |rowers| && 0 <= j < |scores[rowers[i]].splits| ==>
        b.lower as real <= scores[rowers[i]].splits[j]
  {
    var all := AllSplits(rowers, scores);
    AllSplitsMembers(rowers, scores);
    assert scores[rowers[0]].splits[0] in all;
    var lo, hi := SeqMin(all), SeqMax(all);
    BoundsOrdered(lo, hi);
    if forall i, j :: 0 <= i < |rowers| && 0 <= j < |scores[rowers[i]].splits| ==>
         scores[rowers[i]].splits[j] >= 0.0 {
      assert lo >= 0.0 by {
        var i :| 0 <= i < |rowers| && lo in scores[rowers[i]].splits;
      }
    }
  }

  /** Two rowers with splits 100, 105, 98 and 110, 90, 95. */
  function ExampleScores(): map<string, Record> {
    map["A" := SheetRecord("", "", None, 0.0, 0.0, [100.0, 105.0, 98.0]),
        "B" := SheetRecord("", "", None, 0.0, 0.0, [110.0, 90.0, 95.0])]
  }

  lemma ExampleSplits()
    ensures AllSelected(["A", "B"], ExampleScores())
    ensures AllSplits(["A", "B"], ExampleScores()) == [100.0, 105.0, 98.0, 110.0, 90.0, 95.0]
  {
    var rowers := ["A", "B"];
    assert rowers[..1] == ["A"];
    assert ["A"][..0] == [];
    assert AllSplits(["A"], ExampleScores()) == [100.0, 105.0, 98.0];
  }

  /** The worked example: those two rowers get the bounds 90 and 115
      (90 rounded down stays 90; 110 + (110 - 90) / 5 = 114 rounds up to 115). */
  lemma SplitBoundsExample()
    ensures SplitBounds(["A", "B"], ExampleScores()) == Success(Bounds(90, 115))
  {
    ExampleExtremes();
    ExampleBounds();
    assert FirstMissing(["A", "B"], ExampleScores()) == None;
  }

  lemma ExampleExtremes()
    ensures AllSelected(["A", "B"], ExampleScores())
    ensures SeqMin(AllSplits(["A", "B"], ExampleScores())) == 90.0
    ensures SeqMax(AllSplits(["A", "B"], ExampleScores())) == 110.0
  {
    ExampleSplits();
    var all := AllSplits(["A", "B"], ExampleScores());
    assert IsLeast(90.0, all);
    assert IsGreatest(110.0, all);
    ExtremesUnique(90.0, 110.0, all);
  }

  lemma ExampleBounds()
    ensures BoundsOf(90.0, 110.0) == Bounds(90, 115)
  {
    assert Trunc(90.0) == 90;
    assert Ceil(114.0 / 5.0) == 23;
  }

  /** The inner loop of `determine_split_bounds`: folds one rower's splits
      into the running minimum and maximum. */
  method ScanSplits(splits: seq<real>, lo: real, hi: real, ghost seen: seq<real>)
    returns (newLo: real, newHi: real)
    requires IsLeast(lo, seen) && IsGreatest(hi, seen)
    ensures IsLeast(newLo, seen + splits) && IsGreatest(newHi, seen + splits)
  {
    newLo, newHi := lo, hi;
    var j := 0;
    while j < |splits|
      invariant 0 <= j <= |splits|
      invariant IsLeast(newLo, seen + splits[..j])
      invariant IsGreatest(newHi, seen + splits[..j])
    {
      assert seen + splits[..j + 1] == (seen + splits[..j]) + [splits[j]];
      if splits[j] < newLo {
        newLo := splits[j];
      }
      if splits[j] > newHi {
        newHi := splits[j];
      }
      j := j + 1;
    }
    assert splits[..j] == splits;
  }

  /** The outer loop of `determine_split_bounds`: scans the rowers in order,
      stopping at the first one without a record, and otherwise returns the
      extremes of the seed and every split. */
  method ScanRowers(rowers: seq<string>, scores: map<string, Record>, seed: real)
    returns (missing: Option<string>, lo: real, hi: real)
    ensures missing == FirstMissing(rowers, scores)
    ensures missing.None? ==> IsLeast(lo, [seed] + AllSplits(rowers, scores))
    ensures missing.None? ==> IsGreatest(hi, [seed] + AllSplits(rowers, scores))
  {
    lo, hi := seed, seed;
    var i := 0;
    while i < |rowers|
      invariant 0 <= i <= |rowers|
      invariant AllSelected(rowers[..i], scores)
      invariant IsLeast(lo, [seed] + AllSplits(rowers[..i], scores))
      invariant IsGreatest(hi, [seed] + AllSplits(rowers[..i], scores))
    {
      var rower := rowers[i];
      if rower !in scores {
        FirstMissingAfter(rowers, scores, i);
        return Some(rower), lo, hi;
      }
      var splits := scores[rower].splits;
      ghost var before := [seed] + AllSplits(rowers[..i], scores);
      lo, hi := ScanSplits(splits, lo, hi, before);
      AllSplitsStep(rowers, scores, i);
      assert before + splits == [seed] + AllSplits(rowers[..i + 1], scores);
      i := i + 1;
    }
    assert rowers[..i] == rowers;
    return None, lo, hi;
  }

  /** `determine_split_bounds`: seeds the running minimum and maximum with the
      first rower's first split, then scans every split of every rower. */
  method DetermineSplitBounds(rowers: seq<string>, scores: map<string, Record>) returns (r: Result<Bounds, Error>)
    ensures r == SplitBounds(rowers, scores)
  {
    if |rowers| == 0 {
      return Failure(IndexError);
    }
    if rowers[0] !in scores {
      return Failure(KeyError(rowers[0]));
    }
    if |scores[rowers[0]].splits| == 0 {
      return Failure(IndexError);
    }
    var missing, minSplit, maxSplit := ScanRowers(rowers, scores, scores[rowers[0]].splits[0]);
    if missing.Some? {
      return Failure(KeyError(missing.value));
    }
    ScannedExtremes(rowers, scores, minSplit, maxSplit);
    return Success(BoundsOf(minSplit, maxSplit));
  }

  /** Taking one more rower appends that rower's splits. */
  lemma AllSplitsStep(rowers: seq<string>, scores: map<string, Record>, i: nat)
    requires i < |rowers| && AllSelected(rowers[..i + 1], scores)
    ensures AllSelected(rowers[..i], scores)
    ensures AllSplits(rowers[..i + 1], scores) == AllSplits(rowers[..i], scores) + scores[rowers[i]].splits
  {
    assert rowers[..i + 1][..i] == rowers[..i];
  }

  /** The running extremes of a scan seeded with the first rower's first
      split are the extremes that `SplitBounds` computes the bounds from. */
  lemma ScannedExtremes(rowers: seq<string>, scores: map<string, Record>, lo: real, hi: real)
    requires |rowers| > 0 && AllSelected(rowers, scores) && |scores[rowers[0]].splits| > 0
    requires IsLeast(lo, [scores[rowers[0]].splits[0]] + AllSplits(rowers, scores))
    requires IsGreatest(hi, [scores[rowers[0]].splits[0]] + AllSplits(rowers, scores))
    ensures SplitBounds(rowers, scores) == Success(BoundsOf(lo, hi))
  {
    var seed := scores[rowers[0]].splits[0];
    var all := AllSplits(rowers, scores);
    AllSplitsMembers(rowers, scores);
    assert seed in all;
    assert forall x :: x in [seed] + all <==> x == seed || x in all;
    ExtremesUnique(lo, hi, all);
  }

  // ---------------------------------------------------------------------
  // Tick marks

  /** The smallest multiple of `interval` that is at least `lower`. */
  function FirstAligned(lower: int, interval: int): (v: int)
    requires interval > 0
    ensures v % interval == 0
    ensures lower <= v < lower + interval
  {
    RoundDownToMultiple(lower, interval);
    var v := (lower / interval) * interval;
    if v >= lower then v
    else NextMultiple(v, interval); v + interval
  }

  /** The values `start, start + interval, ...` that do not exceed `upper`. */
  function TickSeq(start: int, upper: int, interval: int): (ticks: seq<int>)
    requires interval > 0
    ensures |ticks| == 0 <==> start > upper
    ensures |ticks| > 0 ==> ticks[0] == start && ticks[|ticks| - 1] + interval > upper
    decreases upper - start + interval
  {
    if start > upper then [] else [start] + TickSeq(start + interval, upper, interval)
  }

  /** The stepped values stay in `[start, upper]`, increase strictly, and
      each follows the previous one by exactly the interval. */
  lemma {:induction false} TickSeqSteps(start: int, upper: int, interval: int)
    requires interval > 0
    ensures forall k :: 0 <= k < |TickSeq(start, upper, interval)| ==>
      start <= TickSeq(start, upper, interval)[k] <= upper
    ensures forall i, j :: 0 <= i < j < |TickSeq(start, upper, interval)| ==>
      TickSeq(start, upper, interval)[i] < TickSeq(start, upper, interval)[j]
    ensures forall i, j :: 0 <= i < j < |TickSeq(start, upper, interval)| && j == i + 1 ==>
      TickSeq(start, upper, interval)[j] == TickSeq(start, upper, interval)[i] + interval
    decreases upper - start + interval
  {
    if start <= upper {
      TickSeqSteps(start + interval, upper, interval);
      var rest := TickSeq(start + interval, upper, interval);
      var ticks := TickSeq(start, upper, interval);
      assert ticks == [start] + rest;
      forall k | 0 < k < |ticks|
        ensures ticks[k] == rest[k - 1] && start < ticks[k] <= upper
      {
      }
      forall i, j | 0 <= i < j < |ticks| && j == i + 1
        ensures ticks[j] == ticks[i] + interval
      {
      }
    }
  }

  /** The tick marks for one interval: every multiple of `interval` from the
      first one at or above `lower` up to `upper`, in increasing order and
      `interval` apart. */
  function AxisTicks(lower: int, upper: int, interval: int): (ticks: seq<int>)
    requires interval > 0
    ensures |ticks| > 0 ==> ticks[0] == FirstAligned(lower, interval)
    ensures |ticks| == 0 <==> FirstAligned(lower, interval) > upper
    ensures forall k :: 0 <= k < |ticks| ==> lower <= ticks[k] <= upper
    ensures forall i, j :: 0 <= i < j < |ticks| ==> ticks[i] < ticks[j]
    ensures forall i, j :: 0 <= i < j < |ticks| && j == i + 1 ==> ticks[j] == ticks[i] + interval
  {
    TickSeqSteps(FirstAligned(lower, interval), upper, interval);
    TickSeq(FirstAligned(lower, interval), upper, interval)
  }

  /** Stepping from a multiple of the interval only meets multiples of it,
      and meets every multiple up to `upper`. */
  lemma {:induction false} TickSeqAligned(start: int, upper: int, interval: int)
    requires interval > 0 && start % interval == 0
    ensures forall k :: 0 <= k < |TickSeq(start, upper, interval)| ==> TickSeq(start, upper, interval)[k] % interval == 0
    ensures forall m :: start <= m <= upper && m % interval == 0 ==> m in TickSeq(start, upper, interval)
    decreases upper - start + interval
  {
    if start <= upper {
      NextMultiple(start, interval);
      TickSeqAligned(start + interval, upper, interval);
      var ticks := TickSeq(start, upper, interval);
      var rest := TickSeq(start + interval, upper, interval);
      assert ticks == [start] + rest;
      forall m | start < m <= upper && m % interval == 0
        ensures m in ticks
      {
        MultiplesApart(start, m, interval);
        assert m in rest;
      }
    }
  }

  /** Every tick is a multiple of its interval, and no multiple of the
      interval inside `[lower, upper]` is missed. */
  lemma AxisTicksAlignedAndComplete(lower: int, upper: int, interval: int)
    requires interval > 0
    ensures forall k :: 0 <= k < |AxisTicks(lower, upper, interval)| ==> AxisTicks(lower, upper, interval)[k] % interval == 0
    ensures forall m :: lower <= m <= upper && m % interval == 0 ==> m in AxisTicks(lower, upper, interval)
  {
    var start := FirstAligned(lower, interval);
    TickSeqAligned(start, upper, interval);
    forall m | lower <= m <= upper && m % interval == 0
      ensures start <= m
    {
      if m < start {
        MultiplesApart(m, start, interval);
      }
    }
  }

  /** The stepping loop of `determine_range_scale`: appends values from
      `start` on, `interval` apart, while they do not exceed `upper`. */
  method StepTicks(start: int, upper: int, interval: int) returns (ticks: seq<int>)
    requires interval > 0
    ensures ticks == TickSeq(start, upper, interval)
  {
    var value := start;
    ticks := [];
    while value <= upper
      invariant ticks + TickSeq(value, upper, interval) == TickSeq(start, upper, interval)
      decreases upper - value + interval
    {
      ghost var rest := TickSeq(value + interval, upper, interval);
      assert TickSeq(value, upper, interval) == [value] + rest;
      assert ticks + ([value] + rest) == (ticks + [value]) + rest;
      ticks := ticks + [value];
      value := value + interval;
    }
    assert ticks + [] == ticks;
  }

  /** One tick list as `determine_range_scale` builds it: start at the first
      aligned value and step by the interval while not above `upper`. */
  method Ticks(lower: int, upper: int, interval: int) returns (ticks: seq<int>)
    requires interval > 0
    ensures ticks == AxisTicks(lower, upper, interval)
  {
    ticks := StepTicks(FirstAligned(lower, interval), upper, interval);
  }

  /** `determine_range_scale`: the major and the minor tick marks for the
      given bounds (15 and 5 seconds apart by default). */
  method DetermineRangeScale(bounds: Bounds, majorInterval: int, minorInterval: int)
    returns (majorTicks: seq<int>, minorTicks: seq<int>)
    requires majorInterval > 0 && minorInterval > 0
    ensures majorTicks == AxisTicks(bounds.lower, bounds.upper, majorInterval)
    ensures minorTicks == AxisTicks(bounds.lower, bounds.upper, minorInterval)
  {
    majorTicks := Ticks(bounds.lower, bounds.upper, majorInterval);
    minorTicks := Ticks(bounds.lower, bounds.upper, minorInterval);
  }

  /** The worked example continued: between 90 and 115 the default major
      ticks are 90 and 105, and the default minor ticks every 5 seconds. */
  lemma RangeScaleExample()
    ensures AxisTicks(90, 115, DefaultMajorInterval) == [90, 105]
    ensures AxisTicks(90, 115, DefaultMinorInterval) == [90, 95, 100, 105, 110, 115]
  {
    assert FirstAligned(90, 15) == 90;
    assert FirstAligned(90, 5) == 90;
    assert TickSeq(120, 115, 15) == [];
    assert TickSeq(105, 115, 15) == [105];
    assert TickSeq(120, 115, 5) == [];
    assert TickSeq(115, 115, 5) == [115];
    assert TickSeq(110, 115, 5) == [110, 115];
    assert TickSeq(105, 115, 5) == [105, 110, 115];
    assert TickSeq(100, 115, 5) == [100, 105, 110, 115];
    assert TickSeq(95, 115, 5) == [95, 100, 105, 110, 115];
  }
}

=== FILE: clock.dfy ===
/** Conversions between a number of seconds and the `M:SS.d` clock text
    shown in the chart legend, and the reverse parse of a sheet's `M:SS.s`
    cell (`secBreakdown`, `breakdownTimePrintout`, `sec2timePrintout`,
    `g_sheets_time_to_sec`). */
module Clock {
  import opened Wrappers
  import opened Errors
  import opened Numerics
  import opened Text

  /** Whole minutes, whole seconds within the minute, and microseconds
      within the second. */
  datatype Breakdown = Breakdown(minute: int, second: int, microsec: int)

  /** Splits a number of seconds into minutes, seconds and microseconds. */
  function SecBreakdown(time: real): (b: Breakdown)
    ensures b.minute == Floor(time / 60.0)
    ensures (b.minute * 60) as real <= time < (b.minute * 60 + 60) as real
    ensures b.minute * 60 + b.second == Floor(time)
    ensures 0 <= b.second < 60
    ensures 0 <= b.microsec < 1000000
    ensures b.microsec as real <= (time - Floor(time) as real) * 1000000.0 < b.microsec as real + 1.0
  {
    var minute := Floor(time / 60.0);
    ScaleReal(minute as real, time / 60.0, 60.0);
    ScaleReal(time / 60.0, minute as real + 1.0, 60.0);
    FloorShift(time, minute * 60);
    var second := Floor(time - (minute * 60) as real);
    var microsec := Floor((time - Floor(time) as real) * 1000000.0);
    Breakdown(minute, second, microsec)
  }

  /** Renders a breakdown as `M:SS.d`: the minute as Python prints it, the
      second padded to two digits, and the tenth of a second truncated from
      the microseconds. */
  function BreakdownTimePrintout(minute: int, second: int, microsec: int): (s: string)
    ensures 0 <= second < 60 && 0 <= microsec < 1000000 ==>
      s == IntToString(minute)
           + [':', DigitChar(second / 10), DigitChar(second % 10), '.', DigitChar(microsec / 100000)]
  {
    var secondText := if second < 10 then "0" + IntToString(second) else IntToString(second);
    var tenth := Trunc(microsec as real / 100000.0);
    assert 0 <= second < 60 && 0 <= microsec < 1000000 ==>
      tenth == microsec / 100000 && secondText == [DigitChar(second / 10), DigitChar(second % 10)] by {
      if 0 <= second < 60 && 0 <= microsec < 1000000 {
        TruncOfQuotient(microsec, 100000);
        assert second >= 10 ==> NatToString(second) == NatToString(second / 10) + [DigitChar(second % 10)];
      }
    }
    IntToString(minute) + ":" + secondText + "." + IntToString(tenth)
  }

  /** The fields of an in-range printout sit at fixed places from its end. */
  lemma PrintoutFields(minute: int, second: int, microsec: int)
    requires 0 <= second < 60 && 0 <= microsec < 1000000
    ensures var r := BreakdownTimePrintout(minute, second, microsec);
      && |r| >= 6
      && r[..|r| - 5] == IntToString(minute)
      && r[|r| - 5] == ':' && r[|r| - 2] == '.'
      && AllDigits(r[|r| - 4..|r| - 2]) && DigitsValue(r[|r| - 4..|r| - 2]) < 60
      && IsDigit(r[|r| - 1])
  {
    var r := BreakdownTimePrintout(minute, second, microsec);
    var field := r[|r| - 4..|r| - 2];
    assert field == [DigitChar(second / 10), DigitChar(second % 10)];
    TwoDigitsValue(second / 10, second % 10);
  }

  /** The clock text of a number of seconds. */
  function Sec2TimePrintout(time: real): (r: string)
    ensures |r| >= 6
    ensures r[..|r| - 5] == IntToString(Floor(time / 60.0))
    ensures r[|r| - 5] == ':' && r[|r| - 2] == '.'
    ensures AllDigits(r[|r| - 4..|r| - 2]) && DigitsValue(r[|r| - 4..|r| - 2]) < 60
    ensures IsDigit(r[|r| - 1])
  {
    var b := SecBreakdown(time);
    var r := BreakdownTimePrintout(b.minute, b.second, b.microsec);
    PrintoutFields(b.minute, b.second, b.microsec);
    r
  }

  /** Converts a sheet's `M:SS.s` text to seconds: the text must hold exactly
      one ':', and each side must read as a number. */
  function GSheetsTimeToSec(time: string): (r: Result<real, Error>)
    ensures multiset(time)[':'] != 1 ==> r == Failure(ValueError)
    ensures r.Failure? ==> r.error == ValueError
  {
    var parts := SplitOn(time, ':');
    if |parts| != 2 then Failure(ValueError)
    else match (ParseFloat(parts[0]), ParseFloat(parts[1]))
      case (Some(minute), Some(second)) => Success(minute * 60.0 + second)
      case _ => Failure(ValueError)
  }

  /** The tenth-of-a-second digit of the clock text is the first decimal of
      the time, cut off rather than rounded. */
  lemma DecisecondTruncates(time: real)
    ensures var b := SecBreakdown(time);
      var tenth := Trunc(b.microsec as real / 100000.0);
      && 0 <= tenth <= 9
      && tenth == Floor(time * 10.0) - 10 * Floor(time)
      && tenth == b.microsec / 100000
  {
    var b := SecBreakdown(time);
    var fraction := time - Floor(time) as real;
    TruncOfQuotient(b.microsec, 100000);
    FloorOfFloorQuotient(fraction * 1000000.0);
    assert fraction * 1000000.0 / 100000 as real == time * 10.0 - (10 * Floor(time)) as real;
    FloorShift(time * 10.0, 10 * Floor(time));
  }

  /** A text with one ':' between two numbers reads as minutes and seconds. */
  lemma ReadMinutesAndSeconds(minuteText: string, secondText: string, minute: real, second: real)
    requires ':' !in minuteText && ':' !in secondText
    requires ParseFloat(minuteText) == Some(minute) && ParseFloat(secondText) == Some(second)
    ensures GSheetsTimeToSec(minuteText + [':'] + secondText).Success?
    ensures GSheetsTimeToSec(minuteText + [':'] + secondText).value == minute * 60.0 + second
  {
    SplitOnOnce(minuteText, ':', secondText);
  }

  /** A text with one ':' raises ValueError when either side does not read
      as a number. */
  lemma UnreadableSideFails(minuteText: string, secondText: string)
    requires ':' !in minuteText && ':' !in secondText
    requires ParseFloat(minuteText).None? || ParseFloat(secondText).None?
    ensures GSheetsTimeToSec(minuteText + [':'] + secondText) == Failure(ValueError)
  {
    SplitOnOnce(minuteText, ':', secondText);
  }

  /** The sheet parser reads `M:SS.d` text as its minutes, seconds and
      tenth of a second. */
  lemma ReadClockText(minute: int, tens: nat, units: nat, tenth: nat)
    requires tens < 10 && units < 10 && tenth < 10
    ensures GSheetsTimeToSec(IntToString(minute) + [':'] + [DigitChar(tens), DigitChar(units), '.', DigitChar(tenth)]).Success?
    ensures GSheetsTimeToSec(IntToString(minute) + [':'] + [DigitChar(tens), DigitChar(units), '.', DigitChar(tenth)]).value
         == minute as real * 60.0 + ((tens * 10 + units) as real + tenth as real / 10.0)
  {
    var minuteText := IntToString(minute);
    var rest := [DigitChar(tens), DigitChar(units), '.', DigitChar(tenth)];
    assert ':' !in minuteText by {
      if minute < 0 {
        assert minuteText == ['-'] + NatToString(-minute);
      }
    }
    ParseFloatOfIntToString(minute);
    ParseFloatOfDecimal(tens, units, tenth);
    ReadMinutesAndSeconds(minuteText, rest, minute as real, (tens * 10 + units) as real + tenth as real / 10.0);
  }

  /** The clock text of a time is its minute, a ':', two digits of seconds,
      a '.', and one digit of tenths. */
  lemma ClockTextShape(time: real)
    ensures var b := SecBreakdown(time);
      Sec2TimePrintout(time) == IntToString(b.minute) + [':']
        + [DigitChar(b.second / 10), DigitChar(b.second % 10), '.', DigitChar(b.microsec / 100000)]
  {
  }

  /** The sheet parser reads the clock text of a time as that time's
      minutes, seconds and tenths of a second. */
  lemma ClockTextFields(time: real)
    ensures GSheetsTimeToSec(Sec2TimePrintout(time)).Success?
    ensures var b := SecBreakdown(time);
      GSheetsTimeToSec(Sec2TimePrintout(time)).value
        == b.minute as real * 60.0 + (b.second as real + (b.microsec / 100000) as real / 10.0)
  {
    var b := SecBreakdown(time);
    ClockTextShape(time);
    ReadClockText(b.minute, b.second / 10, b.second % 10, b.microsec / 100000);
    SecondDigits(b.second);
  }

  /** Tens and units put back together give the number. */
  lemma SecondDigits(second: nat)
    ensures ((second / 10) * 10 + second % 10) as real == second as real
  {
  }

  /** Reading the clock text back with the sheet parser gives the time
      truncated to a tenth of a second: never more than the time, and less
      than a tenth below it. */
  lemma ClockTextReadsBack(time: real)
    ensures GSheetsTimeToSec(Sec2TimePrintout(time)).Success?
    ensures GSheetsTimeToSec(Sec2TimePrintout(time)).value == Floor(time * 10.0) as real / 10.0
    ensures Floor(time * 10.0) as real / 10.0 <= time < Floor(time * 10.0) as real / 10.0 + 0.1
  {
    var b := SecBreakdown(time);
    ClockTextFields(time);
    DecisecondTruncates(time);
    var tenth := b.microsec / 100000;
    var whole := Floor(time);
    var tenths := Floor(time * 10.0);
    assert b.minute * 60 + b.second == whole;
    assert tenth == tenths - 10 * whole;
    assert b.minute as real * 60.0 + b.second as real == whole as real;
    assert tenth as real / 10.0 == tenths as real / 10.0 - whole as real;
  }

  /** Worked examples: 125.34 s prints as 2:05.3, and 59.96 s as 0:59.9
      (the tenth is cut, never carried into the next second). */
  lemma PrintoutExamples()
    ensures Sec2TimePrintout(125.34) == "2:05.3"
    ensures Sec2TimePrintout(59.96) == "0:59.9"
  {
    assert Floor(125.34 / 60.0) == 2;
    assert Floor(125.34) == 125;
    assert Floor((125.34 - 125.0) * 1000000.0) == 340000;
    TruncOfQuotient(340000, 100000);
    assert Floor(59.96 / 60.0) == 0;
    assert Floor(59.96) == 59;
    assert Floor((59.96 - 59.0) * 1000000.0) == 960000;
    TruncOfQuotient(960000, 100000);
  }
}

=== FILE: errors.dfy ===
/** The Python exceptions that escape the modelled functions. */
module Errors {

  datatype Error =
    /** A list index past the end (`rowers[0]` on an empty list, `entry[5]` on a short row). */
    | IndexError
    /** A dictionary lookup of a rower or row key that is not present. */
    | KeyError(key: string)
    /** A boat-class lookup (`k[num_oars]`) for a number of oars other than 2, 4 or 8. */
    | OarsKeyError(numOars: int)
    /** `float()` of a text that is not a number, or a time without exactly one ':'. */
    | ValueError
    /** A name used but never bound, such as a function that was not imported. */
    | NameError(name: string)
}

=== FILE: handicap.dfy ===
/** The age handicap of the US Rowing masters system (`age_handicap`): the
    number of seconds a rower of a given age is credited over a distance, in
    a boat with a given number of oars. */
module Handicap {
  import opened Wrappers
  import opened Errors
  import opened Numerics

  /** The age at which the handicap is zero. */
  const PeakAge := 27
  /** Above this age a linear term is added to the quadratic one. */
  const LinearFromAge := 80
  /** The distance, in metres, the coefficients are given for. */
  const BaseDistance := 1000.0

  /** The quadratic coefficient and the per-year rate above 80, for the boat
      sizes the table knows: 2 oars (a single), 4 and 8. */
  datatype Rates = Rates(quadratic: real, linear: real)

  function RatesFor(numOars: int): (r: Option<Rates>)
    ensures r.Some? <==> numOars == 2 || numOars == 4 || numOars == 8
  {
    if numOars == 2 then Some(Rates(0.025, 2.7))
    else if numOars == 4 then Some(Rates(0.0216, 2.3))
    else if numOars == 8 then Some(Rates(0.020, 2.0))
    else None
  }

  /** The handicap over 1000 m of a rower with the given whole years of age:
      the square of the distance from the peak age times the quadratic
      coefficient, plus the linear rate for every year past 80. */
  function PerKilometre(years: int, rates: Rates): (hc: real)
    ensures years == PeakAge ==> hc == 0.0
  {
    if years > LinearFromAge then QuadraticTerm(years, rates.quadratic) + LinearTerm(years, rates.linear)
    else QuadraticTerm(years, rates.quadratic)
  }

  function Square(n: int): int {
    n * n
  }

  /** The square of the whole years from the peak age, times the coefficient. */
  function QuadraticTerm(years: int, coefficient: real): real {
    Square(years - PeakAge) as real * coefficient
  }

  /** The rate times the whole years past 80. */
  function LinearTerm(years: int, rate: real): real {
    rate * (years - LinearFromAge) as real
  }

  /** The handicap in seconds; a boat size missing from the table raises
      KeyError. The age is cut down to whole years first, and the
      per-kilometre value is scaled to the distance. */
  function AgeHandicap(age: real, distance: real, numOars: int): (r: Result<real, Error>)
    ensures r.Success? <==> numOars == 2 || numOars == 4 || numOars == 8
    ensures r.Failure? ==> r.error == OarsKeyError(numOars)
  {
    match RatesFor(numOars)
    case None => Failure(OarsKeyError(numOars))
    case Some(rates) => Success(OverDistance(PerKilometre(Floor(age), rates), distance))
  }

  /** A per-kilometre handicap scaled to a distance in metres. */
  function OverDistance(hc: real, distance: real): (r: real)
    ensures distance == BaseDistance ==> r == hc
  {
    hc * distance / BaseDistance
  }

  /** In a boat the table knows, the handicap is the per-kilometre value
      of the whole years of age, scaled to the distance. */
  lemma HandicapValue(age: real, distance: real, numOars: int, rates: Rates)
    requires RatesFor(numOars) == Some(rates)
    ensures AgeHandicap(age, distance, numOars).Success?
    ensures AgeHandicap(age, distance, numOars).value == OverDistance(PerKilometre(Floor(age), rates), distance)
  {
  }

  /** Every coefficient in the table is positive, and the quadratic one is
      at least 0.02. */
  lemma RatesPositive(numOars: int)
    requires RatesFor(numOars).Some?
    ensures RatesFor(numOars).value.quadratic >= 0.02
    ensures RatesFor(numOars).value.linear >= 2.0
  {
  }

  /** Ages with the same whole years get the same handicap. */
  lemma HandicapByWholeYears(age1: real, age2: real, distance: real, numOars: int)
    requires RatesFor(numOars).Some?
    requires Floor(age1) == Floor(age2)
    ensures AgeHandicap(age1, distance, numOars).Success?
    ensures AgeHandicap(age2, distance, numOars).Success?
    ensures AgeHandicap(age1, distance, numOars).value == AgeHandicap(age2, distance, numOars).value
  {
    HandicapValue(age1, distance, numOars, RatesFor(numOars).value);
    HandicapValue(age2, distance, numOars, RatesFor(numOars).value);
  }

  /** Over a non-negative distance the handicap is never negative. */
  lemma HandicapNonNegative(age: real, distance: real, numOars: int)
    requires RatesFor(numOars).Some? && distance >= 0.0
    ensures AgeHandicap(age, distance, numOars).Success?
    ensures AgeHandicap(age, distance, numOars).value >= 0.0
  {
    var rates := RatesFor(numOars).value;
    HandicapValue(age, distance, numOars, rates);
    RatesPositive(numOars);
    PerKilometreNonNegative(Floor(age), rates);
    OverDistanceMonotone(0.0, PerKilometre(Floor(age), rates), distance);
  }

  /** Over a positive distance the handicap is zero exactly for rowers in
      their 27th year. */
  lemma HandicapZeroAtPeak(age: real, distance: real, numOars: int)
    requires RatesFor(numOars).Some? && distance > 0.0
    ensures AgeHandicap(age, distance, numOars).Success?
    ensures AgeHandicap(age, distance, numOars).value == 0.0 <==> Floor(age) == PeakAge
  {
    var rates := RatesFor(numOars).value;
    HandicapValue(age, distance, numOars, rates);
    RatesPositive(numOars);
    if Floor(age) == PeakAge {
      assert PerKilometre(Floor(age), rates) == 0.0;
    } else {
      PerKilometrePositive(Floor(age), rates);
      OverDistancePositive(PerKilometre(Floor(age), rates), distance);
    }
  }

  /** Two handicaps in the same boat over the same non-negative distance are
      ordered as their per-kilometre values. */
  lemma HandicapOrder(age1: real, age2: real, distance: real, numOars: int)
    requires RatesFor(numOars).Some? && distance >= 0.0
    requires PerKilometre(Floor(age1), RatesFor(numOars).value) <= PerKilometre(Floor(age2), RatesFor(numOars).value)
    ensures AgeHandicap(age1, distance, numOars).Success?
    ensures AgeHandicap(age2, distance, numOars).Success?
    ensures AgeHandicap(age1, distance, numOars).value <= AgeHandicap(age2, distance, numOars).value
  {
    var rates := RatesFor(numOars).value;
    HandicapValue(age1, distance, numOars, rates);
    HandicapValue(age2, distance, numOars, rates);
    OverDistanceMonotone(PerKilometre(Floor(age1), rates), PerKilometre(Floor(age2), rates), distance);
  }

  /** Past the peak age, an older rower never gets a smaller handicap. */
  lemma HandicapGrowsAfterPeak(age1: real, age2: real, distance: real, numOars: int)
    requires RatesFor(numOars).Some? && distance >= 0.0
    requires PeakAge <= Floor(age1) <= Floor(age2)
    ensures AgeHandicap(age1, distance, numOars).Success?
    ensures AgeHandicap(age2, distance, numOars).Success?
    ensures AgeHandicap(age1, distance, numOars).value <= AgeHandicap(age2, distance, numOars).value
  {
    RatesPositive(numOars);
    PerKilometreGrows(Floor(age1), Floor(age2), RatesFor(numOars).value);
    HandicapOrder(age1, age2, distance, numOars);
  }

  /** Before the peak age, a younger rower never gets a smaller handicap. */
  lemma HandicapGrowsBeforePeak(age1: real, age2: real, distance: real, numOars: int)
    requires RatesFor(numOars).Some? && distance >= 0.0
    requires Floor(age1) <= Floor(age2) <= PeakAge
    ensures AgeHandicap(age1, distance, numOars).Success?
    ensures AgeHandicap(age2, distance, numOars).Success?
    ensures AgeHandicap(age2, distance, numOars).value <= AgeHandicap(age1, distance, numOars).value
  {
    RatesPositive(numOars);
    PerKilometreShrinks(Floor(age1), Floor(age2), RatesFor(numOars).value);
    HandicapOrder(age2, age1, distance, numOars);
  }

  /** Up to 80, the handicap is symmetric about the peak age: a rower the
      same number of years below 27 gets the same handicap. */
  lemma HandicapSymmetricAboutPeak(years: nat, distance: real, numOars: int)
    requires RatesFor(numOars).Some?
    requires PeakAge + years <= LinearFromAge
    ensures AgeHandicap((PeakAge - years) as real, distance, numOars).Success?
    ensures AgeHandicap((PeakAge + years) as real, distance, numOars).Success?
    ensures AgeHandicap((PeakAge - years) as real, distance, numOars).value
         == AgeHandicap((PeakAge + years) as real, distance, numOars).value
  {
    var rates := RatesFor(numOars).value;
    var y1 := PeakAge - years;
    var y2 := PeakAge + years;
    HandicapValue(y1 as real, distance, numOars, rates);
    HandicapValue(y2 as real, distance, numOars, rates);
    assert Floor(y1 as real) == y1 && Floor(y2 as real) == y2;
    PerKilometreSymmetric(years, rates);
  }

  /** A bigger boat is handicapped no more than a smaller one, at every age
      and over every non-negative distance. */
  lemma BiggerBoatsGetLess(age: real, distance: real, fewer: int, more: int)
    requires RatesFor(fewer).Some? && RatesFor(more).Some? && fewer <= more
    requires distance >= 0.0
    ensures AgeHandicap(age, distance, fewer).Success?
    ensures AgeHandicap(age, distance, more).Success?
    ensures AgeHandicap(age, distance, more).value <= AgeHandicap(age, distance, fewer).value
  {
    var years := Floor(age);
    var small := RatesFor(fewer).value;
    var big := RatesFor(more).value;
    HandicapValue(age, distance, fewer, small);
    HandicapValue(age, distance, more, big);
    assert big.quadratic <= small.quadratic && big.linear <= small.linear;
    PerKilometreByRates(years, big, small);
    OverDistanceMonotone(PerKilometre(years, big), PerKilometre(years, small), distance);
  }

  /** The handicap is the per-kilometre value scaled in proportion to the
      distance: over `distance` metres it is that value times
      `distance / 1000`. */
  lemma HandicapScalesWithDistance(age: real, distance: real, numOars: int)
    requires RatesFor(numOars).Some?
    ensures AgeHandicap(age, distance, numOars).Success?
    ensures AgeHandicap(age, distance, numOars).value * BaseDistance
         == PerKilometre(Floor(age), RatesFor(numOars).value) * distance
  {
    HandicapValue(age, distance, numOars, RatesFor(numOars).value);
  }

  /** A per-kilometre value scaled to two distances gives values in the
      ratio of the distances. */
  lemma OverDistanceProportional(p: real, d1: real, d2: real)
    ensures OverDistance(p, d1) * d2 == OverDistance(p, d2) * d1
  {
    assert OverDistance(p, d1) * d2 == p * (d1 * d2) / BaseDistance;
    assert OverDistance(p, d2) * d1 == p * (d1 * d2) / BaseDistance;
  }

  /** A single sculler of 40 over 1000 m: 13 years past the peak, so
      13 * 13 * 0.025 = 4.225 seconds, and twice that over 2000 m; of 85:
      58 * 58 * 0.025 + 2.7 * 5 = 97.6. */
  lemma HandicapExamples()
    ensures AgeHandicap(40.0, 1000.0, 2) == Success(4.225)
    ensures AgeHandicap(85.5, 1000.0, 2) == Success(97.6)
    ensures AgeHandicap(40.0, 1000.0, 3) == Failure(OarsKeyError(3))
    ensures AgeHandicap(40.0, 2000.0, 2) == Success(8.45)
  {
    assert Floor(40.0) == 40;
    assert Floor(85.5) == 85;
    assert PerKilometre(40, Rates(0.025, 2.7)) == 4.225;
    assert PerKilometre(85, Rates(0.025, 2.7)) == 97.6;
  }

  /** The per-kilometre value is never negative. */
  lemma PerKilometreNonNegative(years: int, rates: Rates)
    requires rates.quadratic >= 0.0 && rates.linear >= 0.0
    ensures PerKilometre(years, rates) >= 0.0
  {
    SquareFacts(years - PeakAge);
    ScaleMonotone(0.0, Square(years - PeakAge) as real, rates.quadratic);
    if years > LinearFromAge {
      ScaleMonotone(0.0, (years - LinearFromAge) as real, rates.linear);
    }
  }

  /** Away from the peak age the per-kilometre value is positive. */
  lemma PerKilometrePositive(years: int, rates: Rates)
    requires rates.quadratic > 0.0 && rates.linear >= 0.0
    requires years != PeakAge
    ensures PerKilometre(years, rates) > 0.0
  {
    SquareFacts(years - PeakAge);
    ScaleMonotone(1.0, Square(years - PeakAge) as real, rates.quadratic);
    if years > LinearFromAge {
      ScaleMonotone(0.0, (years - LinearFromAge) as real, rates.linear);
    }
  }

  /** The per-kilometre value grows with age past the peak. */
  lemma PerKilometreGrows(y1: int, y2: int, rates: Rates)
    requires PeakAge <= y1 <= y2
    requires rates.quadratic >= 0.0 && rates.linear >= 0.0
    ensures PerKilometre(y1, rates) <= PerKilometre(y2, rates)
  {
    SquareMonotone(y1 - PeakAge, y2 - PeakAge);
    QuadraticTermOrder(y1, y2, rates.quadratic);
    if y2 > LinearFromAge {
      if y1 > LinearFromAge {
        ScaleMonotone((y1 - LinearFromAge) as real, (y2 - LinearFromAge) as real, rates.linear);
      } else {
        ScaleMonotone(0.0, (y2 - LinearFromAge) as real, rates.linear);
      }
    }
  }

  /** Up to 80 the per-kilometre value is symmetric about the peak age. */
  lemma PerKilometreSymmetric(years: nat, rates: Rates)
    requires PeakAge + years <= LinearFromAge
    ensures PerKilometre(PeakAge - years, rates) == PerKilometre(PeakAge + years, rates)
  {
    var d: int := years;
    SquareFacts(d);
    assert (PeakAge - d) - PeakAge == -d && (PeakAge + d) - PeakAge == d;
  }

  /** The per-kilometre value shrinks with age before the peak. */
  lemma PerKilometreShrinks(y1: int, y2: int, rates: Rates)
    requires y1 <= y2 <= PeakAge
    requires rates.quadratic >= 0.0
    ensures PerKilometre(y2, rates) <= PerKilometre(y1, rates)
  {
    SquareFacts(PeakAge - y1);
    SquareFacts(PeakAge - y2);
    SquareMonotone(PeakAge - y2, PeakAge - y1);
    QuadraticTermOrder(y2, y1, rates.quadratic);
  }

  /** Smaller coefficients give a smaller per-kilometre value. */
  lemma PerKilometreByRates(years: int, low: Rates, high: Rates)
    requires 0.0 <= low.quadratic <= high.quadratic && 0.0 <= low.linear <= high.linear
    ensures PerKilometre(years, low) <= PerKilometre(years, high)
  {
    SquareFacts(years - PeakAge);
    ScaleMonotone(low.quadratic, high.quadratic, Square(years - PeakAge) as real);
    if years > LinearFromAge {
      ScaleMonotone(low.linear, high.linear, (years - LinearFromAge) as real);
      assert LinearTerm(years, low.linear) <= LinearTerm(years, high.linear);
    }
    assert QuadraticTerm(years, low.quadratic) <= QuadraticTerm(years, high.quadratic);
  }

  /** The quadratic term follows the order of the squares. */
  lemma QuadraticTermOrder(y1: int, y2: int, coefficient: real)
    requires Square(y1 - PeakAge) <= Square(y2 - PeakAge) && coefficient >= 0.0
    ensures QuadraticTerm(y1, coefficient) <= QuadraticTerm(y2, coefficient)
  {
    ScaleMonotone(Square(y1 - PeakAge) as real, Square(y2 - PeakAge) as real, coefficient);
  }

  lemma OverDistanceMonotone(x: real, y: real, distance: real)
    requires x <= y && distance >= 0.0
    ensures OverDistance(x, distance) <= OverDistance(y, distance)
  {
    ScaleMonotone(x, y, distance);
    assert x * distance / BaseDistance <= y * distance / BaseDistance;
  }

  lemma OverDistancePositive(x: real, distance: real)
    requires x > 0.0 && distance > 0.0
    ensures OverDistance(x, distance) > 0.0
  {
  }

  lemma ScaleMonotone(x: real, y: real, z: real)
    requires x <= y && z >= 0.0
    ensures x * z <= y * z
    ensures z * x <= z * y
  {
  }

  /** A square is never negative, is the same for `n` and `-n`, and is at
      least 1 away from zero. */
  lemma SquareFacts(n: int)
    ensures Square(n) >= 0
    ensures Square(-n) == Square(n)
    ensures n != 0 ==> Square(n) >= 1
  {
    assert (-n) * (-n) == n * n;
    if n < 0 {
      SquareMonotone(1, -n);
    } else if n > 0 {
      SquareMonotone(1, n);
    }
  }

  lemma SquareMonotone(m: int, n: int)
    requires 0 <= m <= n
    ensures Square(m) <= Square(n)
  {
  }
}

=== FILE: numerics.dfy ===
/** Python's integer-valued numeric built-ins on exact reals: `math.floor`,
    `math.ceil`, `int()` on a float, and `round()` to an integer. */
module Numerics {

  /** `math.floor(x)`: the greatest integer not above `x`. */
  function Floor(x: real): (r: int)
    ensures r as real <= x < r as real + 1.0
  {
    x.Floor
  }

  /** `math.ceil(x)`: the least integer not below `x`. */
  function Ceil(x: real): (r: int)
    ensures r as real - 1.0 < x <= r as real
  {
    -((-x).Floor)
  }

  /** `int(x)` on a float: truncation toward zero, unlike `Floor` for negative `x`. */
  function Trunc(x: real): (r: int)
    ensures x >= 0.0 ==> r == Floor(x)
    ensures x < 0.0 ==> r == Ceil(x)
  {
    if x >= 0.0 then x.Floor else -((-x).Floor)
  }

  /** `round(x)`: the nearest integer, ties going to the even neighbour. */
  function RoundHalfEven(x: real): (r: int)
    ensures r as real - 0.5 <= x <= r as real + 0.5
    ensures (x == r as real - 0.5 || x == r as real + 0.5) ==> r % 2 == 0
  {
    var f := x.Floor;
    var rest := x - f as real;
    if rest < 0.5 then f
    else if rest > 0.5 then f + 1
    else if f % 2 == 0 then f
    else f + 1
  }

  /** Truncating a quotient of non-negative integers is integer division. */
  lemma TruncOfQuotient(n: int, d: int)
    requires n >= 0 && d > 0
    ensures Trunc(n as real / d as real) == n / d
  {
    var q, m := n / d, n % d;
    assert n == q * d + m;
    assert (n as real) / (d as real) == q as real + (m as real) / (d as real);
    assert 0.0 <= (m as real) / (d as real) < 1.0;
  }

  /** Flooring before dividing by 100000 loses nothing:
      floor(floor(y) / 100000) == floor(y / 100000). */
  lemma FloorOfFloorQuotient(y: real)
    ensures Floor(y) / 100000 == Floor(y / 100000.0)
  {
    var q := Floor(y / 100000.0);
    var f := Floor(y);
    assert q * 100000 <= f < (q + 1) * 100000;
    DivBetween(f, 100000, q);
  }

  /** Multiplying by a positive factor keeps the order of two reals. */
  lemma ScaleReal(a: real, b: real, d: real)
    requires d > 0.0
    ensures a <= b ==> a * d <= b * d
    ensures a < b ==> a * d < b * d
  {
  }

  /** Multiplying by a positive factor keeps the order of two integers. */
  lemma ScaleInt(a: int, b: int, d: int)
    requires d > 0 && a < b
    ensures a * d + d <= b * d
  {
    var k := b - a;
    assert b * d == a * d + k * d;
    assert k * d >= d by {
      assert k >= 1;
      assert k * d == (k - 1) * d + d;
      assert (k - 1) * d >= 0;
    }
  }

  /** `q` is the integer quotient of `n` by `d` when `n` lies in `[q*d, (q+1)*d)`. */
  lemma DivBetween(n: int, d: int, q: int)
    requires d > 0
    requires q * d <= n < (q + 1) * d
    ensures n / d == q
  {
    var q', m := n / d, n % d;
    assert n == q' * d + m;
    assert (q + 1) * d == q * d + d;
    assert (q' + 1) * d == q' * d + d;
    if q' < q {
      ScaleInt(q', q, d);
    } else if q' > q {
      ScaleInt(q, q', d);
    }
  }

  /** Shifting by a whole number shifts the floor by the same amount. */
  lemma FloorShift(x: real, n: int)
    ensures Floor(x - n as real) == Floor(x) - n
  {
  }

  /** A whole number of steps of `n` is a multiple of `n`. */
  lemma MultipleMod(q: int, n: int)
    requires n > 0
    ensures (q * n) % n == 0
  {
    assert (q + 1) * n == q * n + n;
    DivBetween(q * n, n, q);
  }

  /** Rounding down to a multiple of `n` lands within `n` below. */
  lemma RoundDownToMultiple(x: int, n: int)
    requires n > 0
    ensures (x / n) * n <= x < (x / n) * n + n
    ensures ((x / n) * n) % n == 0
  {
    MultipleMod(x / n, n);
  }

  /** Two different multiples of `n` are at least `n` apart. */
  lemma MultiplesApart(a: int, b: int, n: int)
    requires n > 0 && a % n == 0 && b % n == 0 && a < b
    ensures a + n <= b
  {
    var qa, qb := a / n, b / n;
    assert a == qa * n && b == qb * n;
    if qa >= qb {
      if qa > qb {
        ScaleInt(qb, qa, n);
      }
      assert false;
    }
    ScaleInt(qa, qb, n);
  }

  /** Adding `n` to a multiple of `n` gives a multiple of `n`. */
  lemma NextMultiple(a: int, n: int)
    requires n > 0 && a % n == 0
    ensures (a + n) % n == 0
  {
    var q := a / n;
    assert a == q * n;
    assert a + n == (q + 1) * n;
    MultipleMod(q + 1, n);
  }
}

=== FILE: records.dfy ===
/** Building the per-rower records the chart draws: from a Google-Sheets
    export (`g_sheets_to_dict`) and from a workbook whose cells already hold
    times (`scores_to_dict`), together with the body-weight adjustment
    (`weightAdjustSplit`). */
module Records {
  import opened Wrappers
  import opened Errors
  import opened Numerics
  import opened Text
  import opened Clock

  /** One rower's result. A sheet row keeps its date columns; a workbook row
      keeps the unadjusted split (`split0`) next to the adjusted one. */
  datatype Record =
    | SheetRecord(dateRaw: string, date: string, weight: Option<real>,
                  time: real, split: real, splits: seq<real>)
    | WorkbookRecord(weight: Option<real>, time: real, split: real,
                     split0: real, splits: seq<real>)

  /** Reference body weight of the adjustment formula. */
  const ReferenceWeight := 270.0

  /** `round(x, 1)`: the nearest tenth, ties to the even tenth. */
  function RoundToTenth(x: real): (r: real)
    ensures -0.05 <= r - x <= 0.05
    ensures (r * 10.0).Floor as real == r * 10.0
    ensures (r - x == 0.05 || x - r == 0.05) ==> (r * 10.0).Floor % 2 == 0
  {
    RoundHalfEven(x * 10.0) as real / 10.0
  }

  /** `weightAdjustSplit`: a split scaled by `(weight / 270) ** 0.222` and
      rounded to a tenth, or the split itself when there is no weight.
      `power` stands for `x ** 0.222`. */
  function WeightAdjustSplit(split: real, weight: Option<real>, power: real -> real): (r: real)
    ensures weight.None? ==> r == split
    ensures weight.Some? ==> -0.05 <= r - split * power(weight.value / ReferenceWeight) <= 0.05
    ensures weight.Some? ==> (r * 10.0).Floor as real == r * 10.0
  {
    match weight
    case None => split
    case Some(w) => RoundToTenth(split * power(w / ReferenceWeight))
  }

  /** Folds keyed rows into a dictionary in row order, as the builders' loops
      do: the first row whose conversion raises ends the whole build with
      that error, and a later row with the same key replaces the earlier one. */
  function Assemble<R, V>(rows: seq<R>, entry: R -> Result<(string, V), Error>): (r: Result<map<string, V>, Error>)
    ensures r.Success? <==> forall i :: 0 <= i < |rows| ==> entry(rows[i]).Success?
    ensures r.Failure? ==> exists i :: (0 <= i < |rows| && entry(rows[i]) == Failure(r.error)
      && forall j :: 0 <= j < i ==> entry(rows[j]).Success?)
  {
    if |rows| == 0 then Success(map[])
    else
      var front := rows[..|rows| - 1];
      assert forall i :: 0 <= i < |front| ==> front[i] == rows[i];
      var earlier :- Assemble(front, entry);
      var kv :- entry(rows[|rows| - 1]);
      Success(earlier[kv.0 := kv.1])
  }

  /** Appending a row to a built dictionary writes that row's record under
      its key, replacing any earlier record with the same key. */
  lemma AssembleAppend<R, V>(rows: seq<R>, row: R, entry: R -> Result<(string, V), Error>)
    requires Assemble(rows, entry).Success? && entry(row).Success?
    ensures Assemble(rows + [row], entry)
         == Success(Assemble(rows, entry).value[entry(row).value.0 := entry(row).value.1])
  {
    assert (rows + [row])[..|rows|] == rows;
  }

  /** The dictionary holds exactly the rows' keys, and the record under a key
      is the one built from the LAST row carrying that key. */
  lemma {:induction false} AssembleLastWins<R, V>(rows: seq<R>, entry: R -> Result<(string, V), Error>)
    requires Assemble(rows, entry).Success?
    ensures forall i :: 0 <= i < |rows| ==> entry(rows[i]).Success?
    ensures forall k :: k in Assemble(rows, entry).value <==>
      exists i :: 0 <= i < |rows| && entry(rows[i]).value.0 == k
    ensures forall i :: (0 <= i < |rows| &&
      (forall j :: i < j < |rows| ==> entry(rows[j]).value.0 != entry(rows[i]).value.0)) ==>
      Assemble(rows, entry).value[entry(rows[i]).value.0] == entry(rows[i]).value.1
  {
    if |rows| > 0 {
      var n := |rows| - 1;
      var front := rows[..n];
      assert forall i :: 0 <= i < n ==> front[i] == rows[i];
      AssembleLastWins(front, entry);
      var m := Assemble(front, entry).value;
      var kv := entry(rows[n]).value;
      assert Assemble(rows, entry).value == m[kv.0 := kv.1];
      forall k | k in Assemble(rows, entry).value
        ensures exists i :: 0 <= i < |rows| && entry(rows[i]).value.0 == k
      {
        if k != kv.0 {
          var i :| 0 <= i < n && entry(front[i]).value.0 == k;
          assert entry(rows[i]).value.0 == k;
        }
      }
    }
  }

  /** Every record in the dictionary was built from one of the rows. */
  lemma {:induction false} AssembleValuesFromRows<R, V>(rows: seq<R>, entry: R -> Result<(string, V), Error>)
    requires Assemble(rows, entry).Success?
    ensures forall k :: k in Assemble(rows, entry).value ==>
      exists i :: 0 <= i < |rows| && entry(rows[i]) == Success((k, Assemble(rows, entry).value[k]))
  {
    if |rows| > 0 {
      var n := |rows| - 1;
      var front := rows[..n];
      assert forall i :: 0 <= i < n ==> front[i] == rows[i];
      AssembleValuesFromRows(front, entry);
      var m := Assemble(front, entry).value;
      var kv := entry(rows[n]).value;
      forall k | k in Assemble(rows, entry).value
        ensures exists i :: 0 <= i < |rows| && entry(rows[i]) == Success((k, Assemble(rows, entry).value[k]))
      {
        if k == kv.0 {
          assert entry(rows[n]) == Success((k, Assemble(rows, entry).value[k]));
        } else {
          var i :| 0 <= i < n && entry(front[i]) == Success((k, m[k]));
          assert entry(rows[i]) == Success((k, Assemble(rows, entry).value[k]));
        }
      }
    }
  }

  // ---------------------------------------------------------------------
  // Google-Sheets rows: date, distance, name, weight, time, split, splits...

  /** The column of a sheet row holding the date. */
  const DateColumn := 0
  /** The column of a sheet row holding the rower's name. */
  const NameColumn := 2

  /** Column holding the dictionary key: the rower's name when comparing
      rowers over one distance, the date when following one rower. */
  function KeyColumn(mainColumn: string): (c: nat)
    ensures c == NameColumn <==> mainColumn == "distance"
    ensures c == DateColumn <==> mainColumn != "distance"
  {
    if mainColumn == "distance" then NameColumn else DateColumn
  }

  /** The weight cell: empty means no weight, anything else must be a number. */
  function ParseWeight(cell: string): (r: Result<Option<real>, Error>)
    ensures cell == "" ==> r == Success(None)
    ensures cell != "" ==> (r.Success? <==> ParseFloat(cell).Some?)
    ensures r.Success? && cell != "" ==> r.value == ParseFloat(cell)
    ensures r.Failure? ==> r.error == ValueError
  {
    if cell == "" then Success(None)
    else match ParseFloat(cell)
      case Some(w) => Success(Some(w))
      case None => Failure(ValueError)
  }

  /** Converts each cell in order; the first cell that fails stops the
      conversion with its error. */
  function ConvertAll(cells: seq<string>, convert: string -> Result<real, Error>): (r: Result<seq<real>, Error>)
    ensures r.Success? <==> forall i :: 0 <= i < |cells| ==> convert(cells[i]).Success?
    ensures r.Success? ==> |r.value| == |cells|
    ensures r.Success? ==> forall i :: 0 <= i < |cells| ==> r.value[i] == convert(cells[i]).value
    ensures r.Failure? ==> exists i :: 0 <= i < |cells| && convert(cells[i]) == Failure(r.error)
  {
    if |cells| == 0 then Success([])
    else
      assert forall i :: 1 <= i < |cells| ==> cells[1..][i - 1] == cells[i];
      match convert(cells[0])
      case Failure(e) => Failure(e)
      case Success(first) =>
        match ConvertAll(cells[1..], convert)
        case Failure(e) => Failure(e)
        case Success(rest) => Success([first] + rest)
  }

  /** Converts each split cell in order; the first unreadable one raises. */
  function ParseTimes(cells: seq<string>): (r: Result<seq<real>, Error>)
    ensures r.Success? <==> forall i :: 0 <= i < |cells| ==> GSheetsTimeToSec(cells[i]).Success?
    ensures r.Success? ==> |r.value| == |cells|
    ensures r.Success? ==> forall i :: 0 <= i < |cells| ==> r.value[i] == GSheetsTimeToSec(cells[i]).value
    ensures r.Failure? ==> r.error == ValueError
  {
    ConvertAll(cells, GSheetsTimeToSec)
  }

  /** The date cell with every '/' turned into '-', the text
      `g_sheets_time_to_date` hands to the ISO date parser. */
  function SheetDate(cell: string): string {
    ReplaceChar(cell, '/', '-')
  }

  /** One sheet row as a keyed record. Columns are read in the order the
      source reads them, so a row too short for a column raises IndexError
      there, and an unreadable weight or time raises ValueError. */
  function ParseEntry(entry: seq<string>, mainColumn: string): (r: Result<(string, Record), Error>)
    ensures r.Success? <==> (|entry| >= 6 && ParseWeight(entry[3]).Success?
      && GSheetsTimeToSec(entry[4]).Success? && GSheetsTimeToSec(entry[5]).Success?
      && ParseTimes(entry[6..]).Success?)
    ensures |entry| < 4 ==> r == Failure(IndexError)
    ensures r.Failure? ==> r.error == IndexError || r.error == ValueError
    ensures |entry| >= 6 && r.Failure? ==> r.error == ValueError
    ensures r.Success? ==> r.value.0 == entry[KeyColumn(mainColumn)]
    ensures r.Success? ==> r.value.1 == SheetRecord(entry[2 - KeyColumn(mainColumn)], SheetDate(entry[0]),
      ParseWeight(entry[3]).value, GSheetsTimeToSec(entry[4]).value, GSheetsTimeToSec(entry[5]).value,
      ParseTimes(entry[6..]).value)
    ensures r.Success? ==> (r.value.1.weight.None? <==> entry[3] == "")
    ensures r.Success? ==> |r.value.1.splits| == |entry| - 6
    ensures r.Success? ==> forall i :: 6 <= i < |entry| ==>
      GSheetsTimeToSec(entry[i]).Success? && r.value.1.splits[i - 6] == GSheetsTimeToSec(entry[i]).value
  {
    if |entry| < 4 then Failure(IndexError)
    else match ParseWeight(entry[3])
      case Failure(e) => Failure(e)
      case Success(weight) =>
        if |entry| < 5 then Failure(IndexError)
        else match GSheetsTimeToSec(entry[4])
          case Failure(e) => Failure(e)
          case Success(time) =>
            if |entry| < 6 then Failure(IndexError)
            else ParseRest(entry, mainColumn, weight, time)
  }

  /** The rest of a row of at least six cells, once its weight and time
      were read: the split, the intermediate splits, and the record. */
  function ParseRest(entry: seq<string>, mainColumn: string, weight: Option<real>, time: real): (r: Result<(string, Record), Error>)
    requires |entry| >= 6
    ensures r.Success? <==> GSheetsTimeToSec(entry[5]).Success? && ParseTimes(entry[6..]).Success?
    ensures r.Failure? ==> r.error == ValueError
    ensures r.Success? ==> r.value.0 == entry[KeyColumn(mainColumn)]
    ensures r.Success? ==> r.value.1 == SheetRecord(entry[2 - KeyColumn(mainColumn)], SheetDate(entry[0]),
      weight, time, GSheetsTimeToSec(entry[5]).value, ParseTimes(entry[6..]).value)
  {
    match GSheetsTimeToSec(entry[5])
    case Failure(e) => Failure(e)
    case Success(split) =>
      match ParseTimes(entry[6..])
      case Failure(e) => Failure(e)
      case Success(splits) =>
        Success((entry[KeyColumn(mainColumn)],
                 SheetRecord(entry[2 - KeyColumn(mainColumn)], SheetDate(entry[0]), weight, time, split, splits)))
  }

  /** `g_sheets_to_dict`: every row of the sheet, keyed by `KeyColumn`. */
  function GSheetsToDict(sheet: seq<seq<string>>, mainColumn: string): (r: Result<map<string, Record>, Error>)
    ensures r.Success? <==> forall i :: 0 <= i < |sheet| ==> ParseEntry(sheet[i], mainColumn).Success?
    ensures r.Success? ==> forall i :: 0 <= i < |sheet| ==> |sheet[i]| >= 6
  {
    Assemble(sheet, entry => ParseEntry(entry, mainColumn))
  }

  /** A later row with the same key overwrites the earlier one: after
      appending a row, its record is the one stored under its key. */
  lemma SheetLaterRowOverwrites(sheet: seq<seq<string>>, row: seq<string>, mainColumn: string)
    requires GSheetsToDict(sheet, mainColumn).Success?
    requires ParseEntry(row, mainColumn).Success?
    ensures GSheetsToDict(sheet + [row], mainColumn).Success?
    ensures GSheetsToDict(sheet + [row], mainColumn).value
         == GSheetsToDict(sheet, mainColumn).value[row[KeyColumn(mainColumn)] := ParseEntry(row, mainColumn).value.1]
  {
    AssembleAppend(sheet, row, entry => ParseEntry(entry, mainColumn));
  }

  /** The built dictionary has one key per distinct key cell, and under each
      key the record of the last row carrying it, with as many intermediate
      splits as that row has columns after the sixth. */
  lemma SheetKeysAndLastRecord(sheet: seq<seq<string>>, mainColumn: string)
    requires GSheetsToDict(sheet, mainColumn).Success?
    ensures forall k :: k in GSheetsToDict(sheet, mainColumn).value <==>
      exists i :: 0 <= i < |sheet| && sheet[i][KeyColumn(mainColumn)] == k
    ensures forall i :: (0 <= i < |sheet| &&
      (forall j :: i < j < |sheet| ==> sheet[j][KeyColumn(mainColumn)] != sheet[i][KeyColumn(mainColumn)])) ==>
      && GSheetsToDict(sheet, mainColumn).value[sheet[i][KeyColumn(mainColumn)]] == ParseEntry(sheet[i], mainColumn).value.1
      && |GSheetsToDict(sheet, mainColumn).value[sheet[i][KeyColumn(mainColumn)]].splits| == |sheet[i]| - 6
  {
    AssembleLastWins(sheet, entry => ParseEntry(entry, mainColumn));
  }

  // ---------------------------------------------------------------------
  // Workbook rows: name, weight, time, split, then split cells until a blank.

  /** A workbook row after its cells were read as seconds; `cells` are the
      columns from the fifth on, `None` for a blank cell. */
  datatype WorkbookRow = WorkbookRow(name: string, weight: Option<real>, time: real,
                                     split: real, cells: seq<Option<real>>)

  /** The split cells up to, not including, the first blank one. */
  function LeadingValues(cells: seq<Option<real>>): (r: seq<real>)
    ensures |r| <= |cells|
    ensures forall i :: 0 <= i < |r| ==> cells[i] == Some(r[i])
    ensures |r| < |cells| ==> cells[|r|].None?
  {
    if |cells| == 0 || cells[0].None? then [] else [cells[0].value] + LeadingValues(cells[1..])
  }

  /** Adjusts every split in a list for the same weight. */
  function AdjustAll(splits: seq<real>, weight: Option<real>, power: real -> real): (r: seq<real>)
    ensures |r| == |splits|
    ensures forall i :: 0 <= i < |r| ==> r[i] == WeightAdjustSplit(splits[i], weight, power)
  {
    seq(|splits|, i requires 0 <= i < |splits| => WeightAdjustSplit(splits[i], weight, power))
  }

  /** One workbook row as a keyed record. The weight is used only when
      adjustment is requested. */
  function WorkbookEntry(row: WorkbookRow, weightAdj: bool, power: real -> real): (kv: (string, Record))
    ensures kv.0 == row.name && kv.1.WorkbookRecord?
    ensures kv.1.weight == (if weightAdj then row.weight else None)
    ensures kv.1.split0 == row.split
    ensures |kv.1.splits| == |LeadingValues(row.cells)|
    ensures kv.1.weight.None? ==>
      kv.1.time == row.time && kv.1.split == kv.1.split0 && kv.1.splits == LeadingValues(row.cells)
    ensures kv.1.time == WeightAdjustSplit(row.time, kv.1.weight, power)
    ensures kv.1.split == WeightAdjustSplit(row.split, kv.1.weight, power)
    ensures forall i :: 0 <= i < |kv.1.splits| ==>
      kv.1.splits[i] == WeightAdjustSplit(LeadingValues(row.cells)[i], kv.1.weight, power)
  {
    var weight := if weightAdj then row.weight else None;
    (row.name, WorkbookRecord(weight,
                              WeightAdjustSplit(row.time, weight, power),
                              WeightAdjustSplit(row.split, weight, power),
                              row.split,
                              AdjustAll(LeadingValues(row.cells), weight, power)))
  }

  /** `scores_to_dict`: every workbook row below the header, keyed by name.
      A record built without a weight keeps its raw split. */
  function ScoresToDict(rows: seq<WorkbookRow>, weightAdj: bool, power: real -> real): (scores: map<string, Record>)
    ensures forall k :: k in scores <==> exists i :: 0 <= i < |rows| && rows[i].name == k
    ensures forall k :: k in scores ==> scores[k].WorkbookRecord?
    ensures forall k :: k in scores && scores[k].weight.None? ==> scores[k].split == scores[k].split0
    ensures !weightAdj ==> forall k :: k in scores ==> scores[k].weight.None?
  {
    var entry := (row: WorkbookRow) => Success(WorkbookEntry(row, weightAdj, power));
    var built := Assemble(rows, entry);
    AssembleLastWins(rows, entry);
    AssembleValuesFromRows(rows, entry);
    built.value
  }

  /** A later workbook row with the same name overwrites the earlier one: the
      record under a name is built from the last row carrying that name. */
  lemma WorkbookLastRowWins(rows: seq<WorkbookRow>, weightAdj: bool, power: real -> real, i: nat)
    requires i < |rows|
    requires forall j :: i < j < |rows| ==> rows[j].name != rows[i].name
    ensures ScoresToDict(rows, weightAdj, power)[rows[i].name] == WorkbookEntry(rows[i], weightAdj, power).1
  {
    var entry := (row: WorkbookRow) => Success(WorkbookEntry(row, weightAdj, power));
    AssembleLastWins(rows, entry);
  }
}

=== FILE: rowing_package.dfy ===
/** The `rowing` package's copies of the clock helpers. Its module calls
    `floor` but imports nothing, so the name lookup is modelled explicitly:
    each helper takes the set of names the module has imported, and calling
    `floor` without it in scope raises NameError. */
module RowingPackage {
  import opened Wrappers
  import opened Errors
  import opened Numerics
  import Clock

  /** The names the package module imports as shipped: none. */
  const ShippedImports: set<string> := {}
  /** The same module with `from math import floor` added. */
  const FixedImports: set<string> := {"floor"}

  /** A call of `floor`, which is only defined when it has been imported. */
  function FloorIn(imports: set<string>, x: real): (r: Result<int, Error>)
    ensures "floor" in imports ==> r.Success? && r.value as real <= x < r.value as real + 1.0
    ensures "floor" !in imports ==> r == Failure(NameError("floor"))
  {
    if "floor" in imports then Success(Floor(x)) else Failure(NameError("floor"))
  }

  /** `secBreakdown` of the package: the same four `floor` calls as
      `Clock.SecBreakdown`, each looked up by name. */
  function SecBreakdown(imports: set<string>, time: real): (r: Result<Clock.Breakdown, Error>)
    ensures "floor" !in imports ==> r == Failure(NameError("floor"))
    ensures "floor" in imports ==> r == Success(Clock.SecBreakdown(time))
  {
    match FloorIn(imports, time / 60.0)
    case Failure(e) => Failure(e)
    case Success(minute) =>
      match FloorIn(imports, time - (minute * 60) as real)
      case Failure(e) => Failure(e)
      case Success(second) =>
        match FloorIn(imports, time)
        case Failure(e) => Failure(e)
        case Success(whole) =>
          match FloorIn(imports, (time - whole as real) * 1000000.0)
          case Failure(e) => Failure(e)
          case Success(microsec) => Success(Clock.Breakdown(minute, second, microsec))
  }

  /** `sec2timePrintout` of the package: the breakdown rendered by the
      package's `breakdownTimePrintout`, which is the one in
      `rowing_functions` (`Clock.BreakdownTimePrintout`). */
  function Sec2TimePrintout(imports: set<string>, time: real): (r: Result<string, Error>)
    ensures "floor" !in imports ==> r == Failure(NameError("floor"))
    ensures "floor" in imports ==> r == Success(Clock.Sec2TimePrintout(time))
  {
    var b :- SecBreakdown(imports, time);
    Success(Clock.BreakdownTimePrintout(b.minute, b.second, b.microsec))
  }

  /** As shipped, every call of the package's clock helpers raises
      NameError, whatever the time; with `floor` imported they agree with the
      `rowing_functions` helpers (module `Clock`) on every time. */
  lemma ShippedHelpersFail(time: real)
    ensures SecBreakdown(ShippedImports, time).Failure?
    ensures Sec2TimePrintout(ShippedImports, time) == Failure(NameError("floor"))
    ensures Sec2TimePrintout(FixedImports, time) == Success(Clock.Sec2TimePrintout(time))
  {
    assert "floor" !in ShippedImports;
    assert "floor" in FixedImports;
  }

  /** The discrepancy on a concrete time: 125.34 s raises NameError in the
      package as shipped, and prints as 2:05.3 once `floor` is imported. */
  lemma FloorFinding()
    ensures Sec2TimePrintout(ShippedImports, 125.34) == Failure(NameError("floor"))
    ensures Sec2TimePrintout(FixedImports, 125.34) == Success("2:05.3")
  {
    ShippedHelpersFail(125.34);
    Clock.PrintoutExamples();
  }
}

=== FILE: text.dfy ===
/** The parts of Python's text handling the rowing code relies on: `str()` of
    an integer, `float()` of a decimal text, `str.split` on one separator
    character and `str.replace` of one character. */
module Text {
  import opened Wrappers

  predicate IsDigit(c: char) {
    '0' <= c <= '9'
  }

  predicate AllDigits(s: string) {
    forall i :: 0 <= i < |s| ==> IsDigit(s[i])
  }

  function DigitValue(c: char): (d: nat)
    requires IsDigit(c)
    ensures d < 10
  {
    c as int - '0' as int
  }

  function DigitChar(d: nat): (c: char)
    requires d < 10
    ensures IsDigit(c) && DigitValue(c) == d
  {
    ('0' as int + d) as char
  }

  /** The value of a run of decimal digits, most significant first. */
  function DigitsValue(s: string): nat
    requires AllDigits(s)
  {
    if |s| == 0 then 0 else DigitsValue(s[..|s| - 1]) * 10 + DigitValue(s[|s| - 1])
  }

  /** The value of the digits after a decimal point: "25" is 0.25. */
  function FractionValue(s: string): (v: real)
    requires AllDigits(s)
    ensures 0.0 <= v <= 1.0
  {
    if |s| == 0 then 0.0 else (DigitValue(s[0]) as real + FractionValue(s[1..])) / 10.0
  }

  /** `str(n)` for a natural number: canonical decimal digits, no leading zero. */
  function NatToString(n: nat): (s: string)
    ensures |s| > 0 && AllDigits(s)
    ensures |s| > 1 ==> s[0] != '0'
    ensures n < 10 ==> s == [DigitChar(n)]
  {
    if n < 10 then [DigitChar(n)] else NatToString(n / 10) + [DigitChar(n % 10)]
  }

  /** `str(i)` for any integer: a '-' in front of the digits of a negative number. */
  function IntToString(i: int): (s: string)
    ensures |s| > 0
    ensures i >= 0 ==> s == NatToString(i)
    ensures i < 0 ==> s[0] == '-' && s[1..] == NatToString(-i)
  {
    if i < 0 then "-" + NatToString(-i) else NatToString(i)
  }

  /** Reading back the digits `str` writes gives the number. */
  lemma {:induction false} DigitsValueOfNatToString(n: nat)
    ensures DigitsValue(NatToString(n)) == n
  {
    if n >= 10 {
      var s := NatToString(n);
      DigitsValueOfNatToString(n / 10);
      assert s[..|s| - 1] == NatToString(n / 10);
    }
  }

  /** Two decimal digits read as tens and units. */
  lemma TwoDigitsValue(tens: nat, units: nat)
    requires tens < 10 && units < 10
    ensures DigitsValue([DigitChar(tens), DigitChar(units)]) == tens * 10 + units
  {
    var s := [DigitChar(tens), DigitChar(units)];
    assert s[..1] == [DigitChar(tens)];
    assert s[..1][..0] == [];
    assert DigitsValue(s[..1]) == DigitsValue(s[..1][..0]) * 10 + DigitValue(s[..1][0]);
    assert DigitsValue(s) == DigitsValue(s[..1]) * 10 + DigitValue(s[1]);
  }

  /** The position of the first `c` in `s`, if any (`str.find`). */
  function IndexOf(s: string, c: char): (r: Option<nat>)
    ensures r.None? <==> c !in s
    ensures r.Some? ==> r.value < |s| && s[r.value] == c && c !in s[..r.value]
  {
    if |s| == 0 then None
    else if s[0] == c then Some(0)
    else match IndexOf(s[1..], c)
      case None => None
      case Some(k) => assert s[..k + 1] == [s[0]] + s[1..][..k]; Some(k + 1)
  }

  /** The first `c` in `a + [c] + b` sits right after `a` when `a` holds no `c`. */
  lemma IndexOfAfterPrefix(a: string, c: char, b: string)
    requires c !in a
    ensures IndexOf(a + [c] + b, c) == Some(|a|)
  {
    var s := a + [c] + b;
    assert s[|a|] == c;
  }

  /** Rejoins pieces with `sep` between them (`sep.join(parts)`). */
  function Join(parts: seq<string>, sep: char): string
    requires |parts| > 0
  {
    if |parts| == 1 then parts[0] else parts[0] + [sep] + Join(parts[1..], sep)
  }

  /** `s.split(sep)` for a one-character separator: the pieces between
      separators, in order, with empty pieces kept. */
  function SplitOn(s: string, sep: char): (parts: seq<string>)
    ensures |parts| == multiset(s)[sep] + 1
    ensures forall i :: 0 <= i < |parts| ==> sep !in parts[i]
    ensures Join(parts, sep) == s
    decreases |s|
  {
    match IndexOf(s, sep)
    case None => [s]
    case Some(k) =>
      var rest := SplitOn(s[k + 1..], sep);
      assert s == s[..k] + [sep] + s[k + 1..];
      assert ([s[..k]] + rest)[1..] == rest;
      [s[..k]] + rest
  }

  /** Splitting text with exactly one separator yields its two sides. */
  lemma SplitOnOnce(a: string, sep: char, b: string)
    requires sep !in a && sep !in b
    ensures SplitOn(a + [sep] + b, sep) == [a, b]
  {
    var s := a + [sep] + b;
    IndexOfAfterPrefix(a, sep, b);
    assert s[..|a|] == a;
    assert s[|a| + 1..] == b;
  }

  /** `s.replace(from, to)` for single characters. */
  function ReplaceChar(s: string, from: char, to: char): (r: string)
    ensures |r| == |s|
    ensures forall i :: 0 <= i < |s| ==> r[i] == (if s[i] == from then to else s[i])
  {
    seq(|s|, i requires 0 <= i < |s| => if s[i] == from then to else s[i])
  }

  /** `float(s)` of a number without sign: digits with at most one '.',
      and at least one digit on some side of it. */
  function ParseUnsigned(s: string): (r: Option<real>)
    ensures r.Some? ==> r.value >= 0.0
  {
    match IndexOf(s, '.')
    case None =>
      if |s| > 0 && AllDigits(s) then Some(DigitsValue(s) as real) else None
    case Some(k) =>
      var whole, fraction := s[..k], s[k + 1..];
      if AllDigits(whole) && AllDigits(fraction) && |whole| + |fraction| > 0
      then Some(DigitsValue(whole) as real + FractionValue(fraction))
      else None
  }

  /** `float(s)`: an optional sign, then an unsigned decimal number. */
  function ParseFloat(s: string): (r: Option<real>)
    ensures |s| == 0 ==> r.None?
    ensures r.Some? && r.value < 0.0 ==> s[0] == '-'
  {
    if |s| > 0 && (s[0] == '-' || s[0] == '+') then
      match ParseUnsigned(s[1..])
      case None => None
      case Some(v) => Some(if s[0] == '-' then -v else v)
    else ParseUnsigned(s)
  }

  /** `float(str(i)) == i`: the decimal text of an integer reads back as that integer. */
  lemma ParseFloatOfIntToString(i: int)
    ensures ParseFloat(IntToString(i)) == Some(i as real)
  {
    var n: nat := if i < 0 then -i else i;
    var digits := NatToString(n);
    DigitsValueOfNatToString(n);
    assert IndexOf(digits, '.') == None;
    assert ParseUnsigned(digits) == Some(n as real);
    if i < 0 {
      assert IntToString(i)[1..] == digits;
    } else {
      assert IsDigit(digits[0]);
    }
  }

  /** A two-digit whole part, a '.', and one digit read back as their decimal value. */
  lemma ParseFloatOfDecimal(tens: nat, units: nat, tenth: nat)
    requires tens < 10 && units < 10 && tenth < 10
    ensures ParseFloat([DigitChar(tens), DigitChar(units), '.', DigitChar(tenth)])
         == Some((tens * 10 + units) as real + tenth as real / 10.0)
  {
    var whole := [DigitChar(tens), DigitChar(units)];
    var s := whole + ['.'] + [DigitChar(tenth)];
    assert s == [DigitChar(tens), DigitChar(units), '.', DigitChar(tenth)];
    IndexOfAfterPrefix(whole, '.', [DigitChar(tenth)]);
    assert s[..2] == whole;
    assert s[3..] == [DigitChar(tenth)];
    TwoDigitsValue(tens, units);
    assert FractionValue([DigitChar(tenth)]) == tenth as real / 10.0 by {
      assert [DigitChar(tenth)][1..] == [];
    }
    assert IsDigit(s[0]);
  }
}

=== FILE: wrappers.dfy ===
/** The two outcome types of the model. A Python function that may raise
    returns a `Result`; the `:-` operator stops at the first raised error
    just as the exception would unwind the Python call. */
module Wrappers {

  /** A cell or lookup that may hold nothing, as `None` does in the code. */
  datatype Option<+T> = None | Some(value: T) {

    predicate IsFailure() {
      None?
    }

    function PropagateFailure<U>(): Option<U>
      requires None?
    {
      None
    }

    function Extract(): T
      requires Some?
    {
      value
    }
  }

  /** What a call produced: its return value, or the exception it raised. */
  datatype Result<+T, +E> = Success(value: T) | Failure(error: E) {

    predicate IsFailure() {
      Failure?
    }

    function PropagateFailure<U>(): Result<U, E>
      requires Failure?
    {
      Failure(error)
    }

    function Extract(): T
      requires Success?
    {
      value
    }
  }
}
